=== FILE: README.md ===
# Stock score dashboards — a Dafny model

This project models the decision logic of a set of scripts that build stock
dashboards from Trendlyne score widgets.

- **The tracked dashboard** (`Update_and_Track.py`, modules `Tracker`,
  `Signals`, `History`, `Sweep`). Each run works through these steps:
  - It scrapes quality, valuation and technicals scores for every card.
  - It loads a rolling three-value history per symbol, migrating the legacy
    format that kept one bare number.
  - It gives every card of the page grid that carries a symbol a change
    badge per score and a "heat" streak for quality and technicals. It also
    assigns a five-tier rank. A card without a symbol tag is skipped, and
    since the grid is cleared and only the cards the loop visited are put
    back, it disappears from the page.
  - It collects the movers, whose quality or technicals changed by at least
    5 points.
  - It orders the cards by tier, then by total score, and the movers by
    size, showing the top ten.
  - It saves the new history unless it is empty.
- **The older CSV dashboard** (`Generate_Dashboard_Track_Scores.py`, module
  `ScoreChanges`). It finds the symbol and score columns from normalised
  headers. It shows every row with a badge against a one-value history, then
  replaces that history with this run's scores.
- **The report segregator** (`Segregate_Report.py`, module `Segregate`). It
  puts each row in tier 1, 2 or 3 using strict `> 50` thresholds and lists
  the expected columns that are missing. It reorders the table by tier, then
  by average score, and labels each tier.
- **The ranked widget dashboard** (`main.py` and `Stocks_From_Trendlyne.py`,
  module `Widgets`). It keeps the widget lines whose URL yields a symbol,
  using the pattern `Poppins/([^/]+)/`. It attaches a market cap to each,
  sorts largest first, numbers the cards from 1 and shows each cap in
  crores.

Shared pieces:
- `Basics` holds Python's truncating `int()` and an `Option`.
- `Text` holds `str.strip()`, `str.lower()` and the substring test.
- `StableSort` is a stable insertion sort over any strict weak order.
  Python's `list.sort(reverse=True)` is this sort under the reversed order.
  pandas' two-key `sort_values` is this stable sort under the combined
  order: tier ascending, then average score descending.

Everything the scripts get from the outside world is a parameter:
- the scraped scores;
- the page grid, as the optional symbol text of each card;
- the loaded history file, with its parse outcome;
- the CSV rows;
- the widget lines;
- the percent-decoding routine and the market-cap lookup.

Scores are `real`. The triple of quality, valuation and technicals scores is
`Signals.Scores`, shared by both score dashboards.

Where the code and its documentation disagree, the model follows the code:
- The card ranking total is `q + v + t`, so valuation counts
  (`Update_and_Track.py:207`).
- The new history is built only from the symbols on the page grid. A
  tracked symbol missing from the grid drops out of the history, and a grid
  symbol the scrape missed is recorded with zeros.

The per-card loop of the tracked dashboard writes `new_history[sym]` once
per card. `Sweep.Visit` models it over the grid's symbols. Every written
entry depends only on its symbol, so a repeated symbol overwrites an entry
with the same value.

## Model

| member | source | states |
|---|---|---|
| Basics.Trunc | Update_and_Track.py:49-51 | `int()` of a float truncates toward zero: the result lies within one of the input, on the input's side of zero |
| Basics.TruncOfAbs | Update_and_Track.py:51 | `int(abs(d))` equals the absolute value of `int(d)`, so a drop badge shows the truncated size of the drop |
| Basics.TruncReachesThreshold | Update_and_Track.py:171-172 | a truncated change reaches a whole-number threshold exactly when the change itself does |
| Text.Strip | Update_and_Track.py:156 | `strip()` returns an infix of the input with only whitespace outside it and no whitespace at either end |
| Text.StripIdempotent | Generate_Dashboard_Track_Scores.py:23 | stripping an already stripped symbol changes nothing |
| Text.Lower | Generate_Dashboard_Track_Scores.py:51 | `lower()` keeps the length, maps each capital letter to its small letter and leaves every other character alone |
| Text.Contains | Generate_Dashboard_Track_Scores.py:57 | `word in header` holds exactly when the word occurs at some position of the header |
| StableSort.Sort | Update_and_Track.py:214 | the sort returns a permutation of its input in which no element is placed after one it must precede |
| StableSort.SortIsStable | Update_and_Track.py:214 | the sort keeps every group of equal-key elements in its input order |
| StableSort.SortedPrefixIsSmallest | Update_and_Track.py:222 | an element left out of the first `n` of the sorted list never comes before any element kept |
| History.MigrateEntry | Update_and_Track.py:24-28 | migration keeps an entry's keys; a bare number under "q", "v" or "t" becomes a one-element list; every other value is unchanged |
| History.LoadHistory | Update_and_Track.py:18-32 | a missing or unparsable file, or an entry that is not an object, loads as the empty history; otherwise every entry loads migrated and nothing else changes |
| History.AsRecord | Update_and_Track.py:158-159 | an entry reads as a score record exactly when it is an object whose "q", "v" and "t" are lists, and then it holds those lists |
| History.LegacyEntryLoads | Update_and_Track.py:23-28 | an entry in either format reads as a record after migration, and a bare number becomes the one-element series holding it |
| History.SaveHistory | Update_and_Track.py:34-37 | an empty history leaves the file as it was; a non-empty one becomes its content |
| History.Push | Update_and_Track.py:175-177 | a push leaves one to three values, ending with the newest observation |
| History.PushKeepsNewest | Update_and_Track.py:175-177 | the old values that survive a push are the newest of the history, in their order |
| History.LastNAppend | Update_and_Track.py:175 | keeping the newest `n` values before appending more does not change the newest `n` after |
| History.PushAllKeepsNewest | Update_and_Track.py:174-178 | after any number of runs a series holds exactly the newest three values it has seen, in arrival order, and never more than three |
| Signals.DiffBadge | Update_and_Track.py:44-52 | no badge for an empty history or a current score of 0; otherwise up or down exactly when the score rose or fell against the last value, and never both; the amount is the truncated size of the change |
| Signals.Heat | Update_and_Track.py:54-58 | the streak fires exactly when there are at least two past values and those two with the current one rise strictly |
| Signals.ScoreColor | Update_and_Track.py:39-42 | green exactly for a score of at least 50; red exactly below 30; orange otherwise |
| Signals.TierRank | Update_and_Track.py:61-88 | the rank lies in 1..5; tier 1 means all three are good; 2 means quality and technicals but not valuation; 3 means valuation and exactly one other; 4 means at most one good score and a total of at least 90, i.e. an average of at least 30; 5 is the rest |
| Signals.AllGreenIsTierOne | Update_and_Track.py:40 | a triple is tier 1 exactly when all three scores are shown green |
| Sweep.Collect | Update_and_Track.py:153-155 | filtering over the cards never yields more items than there are cards |
| Sweep.CollectAppend | Update_and_Track.py:153-172 | filtering works item by item: the result for a concatenation is the concatenation of the results |
| Sweep.CollectOrigin | Update_and_Track.py:171-172 | every kept value was produced by some item |
| Sweep.CollectComplete | Update_and_Track.py:171-172 | every item that produces a value has that value kept |
| Sweep.Visit | Update_and_Track.py:153-209 | one pass yields one card per symbol in page order and the kept mover rows in page order; it writes exactly the visited symbols as keys, each with its entry |
| Sweep.LastWinsKeys | Generate_Dashboard_Track_Scores.py:21-28 | a dictionary written once per row has exactly the rows' keys |
| Sweep.LastWinsValue | Generate_Dashboard_Track_Scores.py:22-28 | each key holds the entry of the last row with that key |
| Tracker.ScoresFromWidget | Update_and_Track.py:122-129 | three or more widget numbers give all three scores; one or two give quality only; none give zeros |
| Tracker.PushRecordBounded | Update_and_Track.py:174-178 | after a run each of the three series of a record has one to three values and ends with this run's score |
| Tracker.Reference | Update_and_Track.py:169-170 | a change is measured from the last recorded value, or from the current value itself when there is none |
| Tracker.MoverOf | Update_and_Track.py:168-172 | a symbol is a mover exactly when quality or technicals moved by at least 5 from a recorded value; valuation plays no part; the stored changes are truncated and reach 5 in size |
| Tracker.MoversHaveHistory | Update_and_Track.py:153-172 | every mover is a grid symbol that already had history, with a change of at least 5; conversely every grid symbol with history that moved by at least 5 appears among the movers |
| Tracker.NewSymbolIsQuiet | Update_and_Track.py:159-172 | a symbol with no history gets no badges, no streak, and is no mover |
| Tracker.CardFor | Update_and_Track.py:162-207 | a card keeps its symbol and scores; its tier is 1 to 5 and is 1 exactly when all three scores are green; its total counts valuation; a series with no history gives that score no badge and, for quality and technicals, no streak; a streak on a non-zero score comes with an up badge (`GridCards` and `UnscrapedSymbolRanksLast` place it on the page) |
| Tracker.GridSymbols | Update_and_Track.py:153-156 | no more symbols than cards; every card with a symbol tag contributes its stripped text, and every symbol comes from such a card (`Sweep.CollectAppend` fixes their page order) |
| Tracker.UnscrapedSymbolRanksLast | Update_and_Track.py:158-207 | a grid symbol the scrape missed shows zeros, ranks in tier 5 with total 0 and has no badges |
| Tracker.UnscrapedSymbolRecordsZeros | Update_and_Track.py:158-178 | a grid symbol the scrape missed has its history pushed with zeros |
| Tracker.OffGridHistoryIsIgnored | Update_and_Track.py:153-178 | two histories that agree on the grid's symbols give the same cards, the same movers and the same new entries |
| Tracker.GridCards | Update_and_Track.py:153-209 | one card per grid symbol, in page order |
| Tracker.OrderCards | Update_and_Track.py:206-214 | the cards are permuted into tier-ascending, total-descending order; cards with equal tier and total keep page order |
| Tracker.OrderMovers | Update_and_Track.py:220 | the movers are permuted into descending magnitude order; movers of equal magnitude keep page order |
| Tracker.TopOfSorted | Update_and_Track.py:220-222 | the first `n` of the sorted movers are a sub-multiset of the list in descending magnitude, and no mover left out is larger than one kept |
| Tracker.TopMovers | Update_and_Track.py:219-222 | the table is the first ten, or all, of the stably ordered movers; each mover is shown at most as often as it occurs, largest change first, and none left out is larger than one shown |
| Tracker.SaveWhenGridHasSymbols | Update_and_Track.py:244 | the history file is rewritten exactly when the grid held a symbol |
| Tracker.Run | Update_and_Track.py:137-244 | without a grid nothing is produced; otherwise the cards are those of the grid's cards that carry a symbol, in tier and total order, the movers table is the top ten, and the file holds exactly the grid's symbols, each with its pushed record, unless there were none |
| ScoreChanges.ChangeBadge | Generate_Dashboard_Track_Scores.py:32-39 | no badge without a previous value; otherwise up or down exactly when the score rose or fell, with the truncated size of the change |
| ScoreChanges.ChangeBadgeMatchesDiffBadge | Generate_Dashboard_Track_Scores.py:32-39 | with a non-zero current score this badge equals the tracked dashboard's badge against the last history value |
| ScoreChanges.ZeroScoreStillBadges | Generate_Dashboard_Track_Scores.py:33-38 | a score that fell to 0 shows a drop here but no badge on the tracked dashboard |
| ScoreChanges.Lookup | Generate_Dashboard_Track_Scores.py:123-126 | a symbol absent from the history has no previous value at all; a present one has all three from its entry |
| ScoreChanges.FirstWhere | Generate_Dashboard_Track_Scores.py:57-62 | `next(...)` finds no header exactly when none qualifies; otherwise it returns a qualifying header with no qualifying header before it |
| ScoreChanges.Headers | Generate_Dashboard_Track_Scores.py:51 | every header is stripped and lower-cased, in place |
| ScoreChanges.DetectColumns | Generate_Dashboard_Track_Scores.py:51-66 | detection fails exactly when no normalised header mentions "symbol"; otherwise each column is the first header mentioning its word, and the name column needs both "stock" and "name" |
| ScoreChanges.Cell | Generate_Dashboard_Track_Scores.py:118-120 | an undetected column or a cell that is not a number reads as 0 |
| ScoreChanges.SavedSymbols | Generate_Dashboard_Track_Scores.py:20-30 | the saved history holds exactly the rows' stripped symbols, and nothing from the old history |
| ScoreChanges.SavedScores | Generate_Dashboard_Track_Scores.py:22-28 | each saved symbol holds the scores of its last row, with 0 for an undetected column |
| ScoreChanges.SaveHistory | Generate_Dashboard_Track_Scores.py:20-30 | the saved keys are exactly the rows' stripped symbols and the last row's symbol holds that row's scores (`SavedSymbols` and `SavedScores` give every key's entry) |
| ScoreChanges.CardOf | Generate_Dashboard_Track_Scores.py:114-131 | a row's card shows its stripped symbol and its truncated scores; it has no badge when the symbol has no history, and otherwise badges each score against that score in the symbol's history entry |
| ScoreChanges.Page | Generate_Dashboard_Track_Scores.py:114 | one card per row, in file order |
| ScoreChanges.RerunShowsNoChange | Generate_Dashboard_Track_Scores.py:20-39 | against the history a run saves, the last row of each symbol shows no badge |
| Segregate.Get | Segregate_Report.py:13-16 | a missing column reads as 0 |
| Segregate.CategorizeStock | Segregate_Report.py:9-26 | the tier is 1, 2 or 3; 1 exactly when durability and momentum both exceed 50; 2 exactly when not 1 and valuation exceeds 50; 3 otherwise |
| Segregate.MissingScoreIsNeverTierOne | Segregate_Report.py:14-20 | a row without durability or momentum is never tier 1 |
| Segregate.HighValuationSuffices | Segregate_Report.py:21-22 | a valuation above 50 alone secures tier 2 or better |
| Segregate.FiftyIsNotGoodHere | Segregate_Report.py:11-20 | scores of exactly 50 give tier 3 here, although the tracked dashboard ranks the same triple tier 1 |
| Segregate.MissingFrom | Segregate_Report.py:51 | the missing list has exactly the required columns absent from the table, and is no longer than the required list |
| Segregate.MissingInRequiredOrder | Segregate_Report.py:51 | the missing columns appear in the order of the required list |
| Segregate.MissingColumnsExact | Segregate_Report.py:50-51 | the report's warning names exactly the absent columns among Durability, Valuation and Momentum Score, in that order |
| Segregate.SortReport | Segregate_Report.py:77 | the rows are permuted into tier-ascending, average-descending order; rows with equal tier and average keep table order |
| Segregate.TierLabel | Segregate_Report.py:80-81 | exactly tiers 1 to 3 have a category label |
| Segregate.EveryRowIsLabelled | Segregate_Report.py:73-81 | every row receives a category label |
| Widgets.MatchAtIsPattern | main.py:13 | the left-to-right scan matches at a position exactly when the pattern does, and the group there is the whole run of characters other than '/' |
| Widgets.FirstMatchFrom | Stocks_From_Trendlyne.py:14 | the scan finds the leftmost position where the pattern matches, or reports that there is none |
| Widgets.Capture | main.py:13-14 | the group is absent exactly when the pattern matches nowhere; otherwise it is the group of a match with no match further left, non-empty and free of '/' |
| Widgets.ExtractSymbol | main.py:12-16 | the symbol is absent exactly when the pattern does not match; otherwise it is the decoded group |
| Widgets.KeepOneLine | main.py:49-53 | a line yields a stock exactly when it contains "trendlyne-widgets" and its extracted symbol is non-empty; the stock holds that symbol, the stripped line and a cap of 0 |
| Widgets.KeepStocks | main.py:49-53 | no more stocks than lines; every line that yields a stock has it kept, and every kept stock has a non-empty symbol extracted from a widget line, that line stripped as its code, and cap 0 (`KeepOneLine` and `KeepStocksAppend` fix the order) |
| Widgets.KeepStocksAppend | Stocks_From_Trendlyne.py:57-61 | lines are filtered one by one, so kept stocks stay in file order |
| Widgets.WithMarketCaps | Stocks_From_Trendlyne.py:66-69 | every stock gets the cap looked up for its symbol, and nothing else changes |
| Widgets.SortByCap | main.py:63 | the stocks are permuted into descending cap order; equal caps keep file order |
| Widgets.Display | main.py:93 | "N/A" exactly when the cap is not positive; otherwise the whole number of crores the cap holds |
| Widgets.Number | Stocks_From_Trendlyne.py:137-138 | the i-th stock, counting from 0, is ranked i + 1 and shown with its displayed cap |
| Widgets.RankByCap | main.py:63-93 | every stock appears once, largest cap first with ties in the given order, ranked 1, 2, … and shown through `Display` |
| Widgets.Dashboard | main.py:47-93 | the page lists every kept stock once, with its cap shown as "N/A" or in whole crores, largest cap first, ranked 1, 2, … in that order, with equal caps in file order |

## Left out

- The browser scrape is left out: Selenium, the waits, and the parsing of widget texts such as "79/100" with `float()`. The scraped scores come in as a map. `Tracker.ScoresFromWidget` starts from the parsed numbers.
- HTML is left out: the BeautifulSoup edits of the page, all HTML and CSS templating, the emoji and colour strings, and the thousands separators of the crore display. The model yields plain cards, badges and numbers.
- File, JSON and archive I/O is left out, as are the clock (`datetime.now`, the pytz date strings) and the dated copy of the page. The history file is a value with a parse outcome, and a save returns the file's new content.
- The tracked loop reads `history.get(sym, …)` only for the symbols on the page grid, and it indexes `hist['q']` and the other two keys directly. So the script raises only when the symbol of a malformed entry is on the grid. A loaded entry is malformed when it lacks lists under "q", "v" and "t". A malformed entry for a symbol off the grid is never read and drops out of the new history. `Tracker.Run` takes the history as typed records: `History.AsRecord` produces one exactly for each well-formed entry, and the history `Run` receives leaves the malformed entries out. `Tracker.OffGridHistoryIsIgnored` proves that entries off the grid have no effect on the cards, the movers or the written entries. JSON `true` and `false`, which Python treats as the numbers 1 and 0 during migration, are not modelled, and neither are lists with non-numeric elements.
- pandas is left out: reading the CSV and HTML tables, `to_numeric(errors='coerce')`, and `mean().round(2)`. A score cell that is not a number is absent from the row's cells and reads as 0. The average score of a report row is an input.
- The report segregator's column reordering, the dropped helper column and the output file are left out.
- Network lookups are left out: the market-cap lookup through yfinance is a parameter, so its failure path is whatever value it returns. A NaN cap, which `x or 0.0` would keep, is not modelled. `urllib.parse.unquote` is a parameter too.
- news_bot.py and Sort_With_Selenium.py are not part of this model. One is network messaging and the other is browser automation.
- Text.Lower: only the ASCII capitals are lowered, because Python's full Unicode case mapping is not modelled.
- Scores, totals, averages and market caps are exact real numbers. The floating-point rounding of `q + v + t`, of `(q + v + t) / 3`, of `mcap / 10000000` and of the score differences `current - prev` and `curr - last` is not modelled. A badge or mover amount can therefore differ from the script's by one: in floating point `0.1 - 4.1` is slightly above -4, so the script shows ▼3, while `Signals.DiffBadge` gives `Down(4)` for the exact difference. For the same reason a change of almost exactly 5 points can fall on the other side of the mover threshold.
- The case-insensitive search for the widget file, the console messages and the `sys.exit` error paths are left out, apart from detection failing for want of a symbol column.
- The CSV dashboard's history file may hold an entry that is an empty object or that lacks a score. Python treats the first as absent and raises on the second. The model's history entries always hold all three scores, as that script writes them.
- A symbol cell that pandas reads as NaN becomes the text "nan" in the script. The model takes the symbol cell's text as given.

=== FILE: basics.dfy ===
/** Small shared definitions: an optional value and Python's numeric conversions. */
module Basics {

  /** A value that may be absent (Python's `None`). */
  datatype Option<+T> = None | Some(value: T)

  function Abs(x: real): real
  {
    if x < 0.0 then -x else x
  }

  function IntAbs(n: int): nat
  {
    if n < 0 then -n else n
  }

  function Max(a: int, b: int): int
  {
    if a < b then b else a
  }

  function Min(a: int, b: int): int
  {
    if a < b then a else b
  }

  /** Python's `int(x)` on a float: the integer part, truncating toward zero. */
  function Trunc(x: real): (r: int)
    ensures 0.0 <= x ==> 0 <= r && r as real <= x < r as real + 1.0
    ensures x < 0.0 ==> r <= 0 && r as real - 1.0 < x <= r as real
  {
    if x >= 0.0 then x.Floor else -((-x).Floor)
  }

  /** Truncation commutes with negation, so `int(abs(d)) == abs(int(d))`. */
  lemma TruncOfAbs(x: real)
    ensures Trunc(Abs(x)) == IntAbs(Trunc(x))
  {
  }

  /** A truncated difference reaches a whole-number threshold exactly when
      the difference itself does. */
  lemma TruncReachesThreshold(x: real, n: nat)
    ensures IntAbs(Trunc(x)) >= n <==> Abs(x) >= n as real
  {
  }
}

=== FILE: history.dfy ===
/** The rolling score history of the tracked dashboard: loading with the
    legacy-format migration, the empty-store save guard, and the three-value
    rolling window (Update_and_Track.py). */
module History {
  import opened Basics

  /** Number of past observations kept per score dimension. */
  const Window: nat := 3

  /** The three keys a history entry stores its series under. */
  const ScoreKeys: set<string> := {"q", "v", "t"}

  /** One symbol's history: quality, valuation and technicals, oldest first. */
  datatype Record = Record(q: seq<real>, v: seq<real>, t: seq<real>)

  /** What a symbol never seen before starts from. */
  const EmptyRecord := Record([], [], [])

  type Store = map<string, Record>

  /** A JSON value found under a key of a stored entry: a number, a list of
      numbers, or anything else (booleans and lists holding non-numbers are
      not told apart from the rest). */
  datatype RawValue = Number(x: real) | List(xs: seq<real>) | OtherValue

  /** A stored entry: a JSON object, or anything else (which `.get` rejects). */
  datatype RawEntry = Object(fields: map<string, RawValue>) | NotObject

  type RawStore = map<string, RawEntry>

  /** The state of the history file: missing, unreadable (not JSON, or not a
      JSON object at the top level), or parsed into entries. */
  datatype HistoryFile = Missing | Corrupt | Parsed(store: RawStore)

  /** The legacy format kept a bare number; it becomes a one-element list. */
  function Promote(v: RawValue): (r: RawValue)
    ensures v.Number? ==> r == List([v.x])
    ensures !v.Number? ==> r == v
  {
    match v
    case Number(x) => List([x])
    case _ => v
  }

  /** Migrates one entry: only the values under "q", "v" and "t" change, and
      afterwards none of them is a bare number. */
  function MigrateEntry(fields: map<string, RawValue>): (r: map<string, RawValue>)
    ensures r.Keys == fields.Keys
    ensures forall k :: k in r && k in ScoreKeys ==> !r[k].Number?
    ensures forall k :: k in fields && fields[k].Number? && k in ScoreKeys
                        ==> r[k] == List([fields[k].x])
    ensures forall k :: k in fields && (!fields[k].Number? || k !in ScoreKeys)
                        ==> r[k] == fields[k]
  {
    map k | k in fields :: if k in ScoreKeys then Promote(fields[k]) else fields[k]
  }

  /** Loads the history. A missing or unparsable file, or an entry that is
      not an object (so the migration loop raises), gives the empty store;
      otherwise every entry is migrated and nothing else changes. */
  function LoadHistory(file: HistoryFile): (r: RawStore)
    ensures !file.Parsed? ==> r == map[]
    ensures file.Parsed? && (exists sym :: sym in file.store && file.store[sym].NotObject?)
            ==> r == map[]
    ensures file.Parsed? && (forall sym :: sym in file.store ==> file.store[sym].Object?)
            ==> r.Keys == file.store.Keys
                && forall sym :: sym in r ==> r[sym] == Object(MigrateEntry(file.store[sym].fields))
  {
    match file
    case Parsed(store) =>
      if exists sym :: sym in store && store[sym].NotObject? then map[]
      else map sym | sym in store :: Object(MigrateEntry(store[sym].fields))
    case _ => map[]
  }

  /** Reads a loaded entry as a typed record when all three series are lists. */
  function AsRecord(e: RawEntry): (r: Option<Record>)
    ensures r.Some? <==> e.Object? && forall k :: k in ScoreKeys ==> k in e.fields && e.fields[k].List?
    ensures r.Some? ==> r.value == Record(e.fields["q"].xs, e.fields["v"].xs, e.fields["t"].xs)
  {
    match e
    case Object(f) =>
      if "q" in f && "v" in f && "t" in f && f["q"].List? && f["v"].List? && f["t"].List?
      then Some(Record(f["q"].xs, f["v"].xs, f["t"].xs))
      else None
    case NotObject => None
  }

  /** A legacy entry holding bare numbers, or an entry of either format, loads
      as a record whose series are the numbers it held. */
  lemma LegacyEntryLoads(fields: map<string, RawValue>)
    requires forall k :: k in ScoreKeys ==> k in fields && !fields[k].OtherValue?
    ensures AsRecord(Object(MigrateEntry(fields))).Some?
    ensures forall k :: k in ScoreKeys && fields[k].Number?
                        ==> Object(MigrateEntry(fields)).fields[k] == List([fields[k].x])
  {
  }

  /** What the history file holds after a save: the new store, except that an
      empty store is never written and the file keeps what it had. */
  function SaveHistory(data: Store, onDisk: Option<Store>): (file: Option<Store>)
    ensures |data| == 0 ==> file == onDisk
    ensures |data| > 0 ==> file == Some(data)
  {
    if |data| > 0 then Some(data) else onDisk
  }

  /** The newest `n` elements of `s`, Python's `s[-n:]`. */
  function LastN(s: seq<real>, n: nat): (r: seq<real>)
    ensures |r| == Min(|s|, n)
    ensures r == s[|s| - |r|..]
  {
    if |s| <= n then s else s[|s| - n..]
  }

  /** Appends the current observation and keeps the newest three. */
  function Push(h: seq<real>, x: real): (r: seq<real>)
    ensures 1 <= |r| <= Window
    ensures |r| == Min(|h| + 1, Window)
    ensures r[|r| - 1] == x
  {
    LastN(h + [x], Window)
  }

  /** The old values that survive a push are the newest ones of the history,
      in their order. */
  lemma PushKeepsNewest(h: seq<real>, x: real)
    ensures Push(h, x) == h[|h| - (|Push(h, x)| - 1)..] + [x]
  {
  }

  /** The effect of a sequence of runs on one series. */
  function PushAll(h: seq<real>, xs: seq<real>): seq<real>
    decreases |xs|
  {
    if xs == [] then h else PushAll(Push(h, xs[0]), xs[1..])
  }

  /** Taking the newest `n` before appending more does not change the newest
      `n` after. */
  lemma LastNAppend(a: seq<real>, b: seq<real>, n: nat)
    ensures LastN(LastN(a, n) + b, n) == LastN(a + b, n)
  {
    if |a| > n {
      assert LastN(a, n) == a[|a| - n..];
      if |b| < n {
        LastNAppendShort(a, b, n);
      } else {
        LastNAppendLong(a, b, n);
      }
    }
  }

  /** The case of `LastNAppend` where some old values survive. */
  lemma LastNAppendShort(a: seq<real>, b: seq<real>, n: nat)
    requires |b| < n < |a|
    ensures LastN(a[|a| - n..] + b, n) == LastN(a + b, n)
  {
  }

  /** The case of `LastNAppend` where only appended values survive. */
  lemma LastNAppendLong(a: seq<real>, b: seq<real>, n: nat)
    requires n <= |b| && n < |a|
    ensures LastN(a[|a| - n..] + b, n) == LastN(a + b, n)
  {
  }

  /** After any number of runs a series holds exactly the newest three of all
      the values it has seen, in arrival order (provided it started within the
      window or saw at least one run). */
  lemma {:induction false} PushAllKeepsNewest(h: seq<real>, xs: seq<real>)
    requires |h| <= Window || |xs| > 0
    ensures PushAll(h, xs) == LastN(h + xs, Window)
    ensures |PushAll(h, xs)| <= Window
    decreases |xs|
  {
    if xs != [] {
      PushAllKeepsNewest(Push(h, xs[0]), xs[1..]);
      LastNAppend(h + [xs[0]], xs[1..], Window);
      assert h + [xs[0]] + xs[1..] == h + xs;
    }
  }
}

=== FILE: score_changes.dfy ===
/** The older CSV-driven dashboard (Generate_Dashboard_Track_Scores.py): it
    detects the score columns from the headers, shows each row's scores with
    a change badge against a one-value-per-score history, and replaces that
    history with this run's scores. */
module ScoreChanges {
  import opened Basics
  import opened Signals
  import opened Sweep
  import Text

  /** The change badge of this dashboard. Only a missing previous value
      suppresses it: unlike the tracked dashboard, a current score of 0 can
      still show one. */
  function ChangeBadge(current: real, prior: Option<real>): (b: Badge)
    ensures prior.None? ==> b == NoBadge
    ensures prior.Some? ==>
              && (b.Up? <==> current > prior.value)
              && (b.Down? <==> current < prior.value)
              && (b.Up? ==> b.amount as real <= current - prior.value < b.amount as real + 1.0)
              && (b.Down? ==> b.amount as real <= prior.value - current < b.amount as real + 1.0)
  {
    match prior
    case None => NoBadge
    case Some(prev) =>
      var diff := current - prev;
      if diff > 0.0 then Up(Trunc(diff))
      else if diff < 0.0 then Down(Trunc(Abs(diff)))
      else NoBadge
  }

  /** With a non-zero current score the two dashboards badge alike, the
      previous value being the last one of the history. */
  lemma ChangeBadgeMatchesDiffBadge(current: real, history: seq<real>)
    requires |history| > 0 && current != 0.0
    ensures ChangeBadge(current, Some(history[|history| - 1])) == DiffBadge(current, history)
  {
  }

  /** Where the two differ: a score that fell to 0 shows a drop here and no
      badge on the tracked dashboard. */
  lemma ZeroScoreStillBadges(prev: real)
    requires prev >= 1.0
    ensures ChangeBadge(0.0, Some(prev)).Down?
    ensures ChangeBadge(0.0, Some(prev)).amount >= 1
    ensures DiffBadge(0.0, [prev]) == NoBadge
  {
  }

  /** The stored history: one entry of scalar scores, those of the last run,
      per symbol. */
  type FlatStore = map<string, Scores>

  /** The previous scores of a symbol, each absent when the symbol is. */
  datatype PastScores = PastScores(q: Option<real>, v: Option<real>, t: Option<real>)

  /** The past-score lookup: all three previous values come from the
      symbol's entry, and a symbol without one has none at all. */
  function Lookup(history: FlatStore, sym: string): (p: PastScores)
    ensures sym !in history <==> p == PastScores(None, None, None)
    ensures sym in history ==> p.q == Some(history[sym].q) && p.v == Some(history[sym].v)
                               && p.t == Some(history[sym].t)
  {
    if sym in history then
      var s := history[sym];
      PastScores(Some(s.q), Some(s.v), Some(s.t))
    else PastScores(None, None, None)
  }

  /** A header as the script compares it: stripped, then lower-cased. */
  function Normalize(h: string): string
  {
    Text.Lower(Text.Strip(h))
  }

  /** The first header satisfying `p`, or none. */
  ghost predicate FirstMatch(headers: seq<string>, p: string -> bool, r: Option<string>)
  {
    && (r.None? <==> forall i :: 0 <= i < |headers| ==> !p(headers[i]))
    && (r.Some? ==> exists i :: && 0 <= i < |headers| && headers[i] == r.value && p(headers[i])
                                && forall j :: 0 <= j < i ==> !p(headers[j]))
  }

  /** Python's `next((c for c in headers if p(c)), None)`. */
  function FirstWhere(headers: seq<string>, p: string -> bool): (r: Option<string>)
    ensures FirstMatch(headers, p, r)
  {
    if headers == [] then None
    else if p(headers[0]) then
      Some(headers[0])
    else
      var r := FirstWhere(headers[1..], p);
      assert FirstMatch(headers, p, r) by {
        if r.Some? {
          var i :| && 0 <= i < |headers[1..]| && headers[1..][i] == r.value && p(headers[1..][i])
                   && forall j :: 0 <= j < i ==> !p(headers[1..][j]);
          assert headers[i + 1] == r.value;
          forall j | 0 <= j < i + 1
            ensures !p(headers[j])
          {
            if j > 0 {
              assert headers[j] == headers[1..][j - 1];
            }
          }
        } else {
          forall i | 0 <= i < |headers|
            ensures !p(headers[i])
          {
            if i > 0 {
              assert headers[i] == headers[1..][i - 1];
            }
          }
        }
      }
      r
  }

  /** A header mentioning `word`. */
  function Mentions(word: string): string -> bool
  {
    h => Text.Contains(h, word)
  }

  /** The stock-name header mentions both "stock" and "name". */
  function NameHeader(h: string): bool
  {
    Text.Contains(h, "stock") && Text.Contains(h, "name")
  }

  /** The detected columns; every score column may be missing. */
  datatype Columns = Columns(symbol: string, name: Option<string>, durability: Option<string>,
                             valuation: Option<string>, momentum: Option<string>)

  /** Header detection fails only for want of a symbol column. */
  datatype Detection = NoSymbolColumn | Detected(cols: Columns)

  /** The headers after normalisation, in order. */
  function Headers(raw: seq<string>): (hs: seq<string>)
    ensures |hs| == |raw|
    ensures forall i :: 0 <= i < |raw| ==> hs[i] == Normalize(raw[i])
  {
    seq(|raw|, i requires 0 <= i < |raw| => Normalize(raw[i]))
  }

  /** Column detection: each column is the first normalised header that
      mentions its word; without a symbol column the run stops. */
  function DetectColumns(raw: seq<string>): (d: Detection)
    ensures d.NoSymbolColumn? <==> forall i :: 0 <= i < |raw| ==> !Text.Contains(Normalize(raw[i]), "symbol")
    ensures d.Detected? ==>
              && FirstMatch(Headers(raw), Mentions("symbol"), Some(d.cols.symbol))
              && FirstMatch(Headers(raw), NameHeader, d.cols.name)
              && FirstMatch(Headers(raw), Mentions("durability"), d.cols.durability)
              && FirstMatch(Headers(raw), Mentions("valuation"), d.cols.valuation)
              && FirstMatch(Headers(raw), Mentions("momentum"), d.cols.momentum)
  {
    var hs := Headers(raw);
    match FirstWhere(hs, Mentions("symbol"))
    case None => NoSymbolColumn
    case Some(symbol) =>
      Detected(Columns(symbol, FirstWhere(hs, NameHeader), FirstWhere(hs, Mentions("durability")),
                       FirstWhere(hs, Mentions("valuation")), FirstWhere(hs, Mentions("momentum"))))
  }

  /** A CSV row: the text of its symbol cell and its numeric cells by
      normalised header. A score cell that did not parse as a number is
      absent, which the script's coercion turns into 0. */
  datatype Row = Row(symbol: string, cells: map<string, real>)

  /** A score of a row: 0 when its column was not detected or its cell is not
      a number. */
  function Cell(row: Row, col: Option<string>): (x: real)
    ensures col.None? ==> x == 0.0
    ensures col.Some? && col.value !in row.cells ==> x == 0.0
    ensures col.Some? && col.value in row.cells ==> x == row.cells[col.value]
  {
    match col
    case None => 0.0
    case Some(c) => if c in row.cells then row.cells[c] else 0.0
  }

  /** The symbol a row is shown and stored under. */
  function RowSymbol(row: Row): string
  {
    Text.Strip(row.symbol)
  }

  /** This run's scores of a row. */
  function RowScores(cols: Columns): Row -> Scores
  {
    row => Scores(Cell(row, cols.durability), Cell(row, cols.valuation), Cell(row, cols.momentum))
  }

  /** The history the run saves: one scalar entry per row under its stripped
      symbol, the last row winning for a repeated symbol; the old history is
      not merged in. */
  function SaveHistory(rows: seq<Row>, cols: Columns): (saved: FlatStore)
    ensures forall sym :: sym in saved <==> exists i :: 0 <= i < |rows| && RowSymbol(rows[i]) == sym
    ensures |rows| > 0 ==> saved[RowSymbol(rows[|rows| - 1])] == RowScores(cols)(rows[|rows| - 1])
  {
    LastWinsDomain(rows, RowSymbol, RowScores(cols));
    LastWins(rows, RowSymbol, RowScores(cols))
  }

  /** The saved history holds exactly the rows' symbols... */
  lemma SavedSymbols(rows: seq<Row>, cols: Columns, sym: string)
    ensures sym in SaveHistory(rows, cols) <==> exists i :: 0 <= i < |rows| && RowSymbol(rows[i]) == sym
  {
    LastWinsKeys(rows, RowSymbol, RowScores(cols), sym);
  }

  /** ...each with the scores of its last row, 0 for an undetected column. */
  lemma SavedScores(rows: seq<Row>, cols: Columns, i: int)
    requires 0 <= i < |rows| && LastOfKey(rows, RowSymbol, i)
    ensures RowSymbol(rows[i]) in SaveHistory(rows, cols)
    ensures var s := SaveHistory(rows, cols)[RowSymbol(rows[i])];
            && s.q == Cell(rows[i], cols.durability)
            && s.v == Cell(rows[i], cols.valuation)
            && s.t == Cell(rows[i], cols.momentum)
  {
    LastWinsValue(rows, RowSymbol, RowScores(cols), i);
  }

  /** A rendered card: the symbol, the scores shown as whole numbers and a
      change badge per score. */
  datatype ChangeCard = ChangeCard(symbol: string, q: int, v: int, t: int,
                                   qBadge: Badge, vBadge: Badge, tBadge: Badge)

  /** The card of a row against the loaded history. */
  function CardOf(row: Row, cols: Columns, history: FlatStore): (c: ChangeCard)
    ensures c.symbol == RowSymbol(row)
    ensures RowSymbol(row) !in history ==> c.qBadge == c.vBadge == c.tBadge == NoBadge
    ensures var now := RowScores(cols)(row);
            && c.q == Trunc(now.q) && c.v == Trunc(now.v) && c.t == Trunc(now.t)
    ensures RowSymbol(row) in history ==>
              var now, past := RowScores(cols)(row), history[RowSymbol(row)];
              && c.qBadge == ChangeBadge(now.q, Some(past.q))
              && c.vBadge == ChangeBadge(now.v, Some(past.v))
              && c.tBadge == ChangeBadge(now.t, Some(past.t))
  {
    var sym := RowSymbol(row);
    var now := RowScores(cols)(row);
    var past := Lookup(history, sym);
    ChangeCard(sym, Trunc(now.q), Trunc(now.v), Trunc(now.t),
               ChangeBadge(now.q, past.q), ChangeBadge(now.v, past.v), ChangeBadge(now.t, past.t))
  }

  /** The page: one card per row, in file order. */
  function Page(rows: seq<Row>, cols: Columns, history: FlatStore): (page: seq<ChangeCard>)
    ensures |page| == |rows|
    ensures forall i :: 0 <= i < |rows| ==> page[i] == CardOf(rows[i], cols, history)
  {
    seq(|rows|, i requires 0 <= i < |rows| => CardOf(rows[i], cols, history))
  }

  /** Saving and rerunning on the same data shows no change: against the
      history this run saves, the last row of each symbol has no badge. */
  lemma RerunShowsNoChange(rows: seq<Row>, cols: Columns, i: int)
    requires 0 <= i < |rows| && LastOfKey(rows, RowSymbol, i)
    ensures var c := Page(rows, cols, SaveHistory(rows, cols))[i];
            c.qBadge == NoBadge && c.vBadge == NoBadge && c.tBadge == NoBadge
  {
    SavedScores(rows, cols, i);
  }
}

=== FILE: segregate.dfy ===
/** The report segregator (Segregate_Report.py): each table row gets a tier
    of 1 to 3 from its scores, and the table is reordered by tier, then by
    average score, with a category label per tier. */
module Segregate {
  import opened Basics
  import opened StableSort
  import Signals

  /** A score must exceed this, strictly, to count as good here. */
  const GoodScore: real := 50.0

  const Durability: string := "Durability Score"
  const Valuation: string := "Valuation Score"
  const Momentum: string := "Momentum Score"

  /** The score columns the report expects, in the order it lists them. */
  const Required: seq<string> := [Durability, Valuation, Momentum]

  /** A row's numeric cells by column name, after non-numbers became 0. */
  type Cells = map<string, real>

  /** `row.get(col, 0)`: a missing column reads as 0. */
  function Get(row: Cells, col: string): (x: real)
    ensures col !in row ==> x == 0.0
    ensures col in row ==> x == row[col]
  {
    if col in row then row[col] else 0.0
  }

  /** The tier of a row: 1 when durability and momentum are both above 50,
      otherwise 2 when valuation is above 50, otherwise 3. */
  function CategorizeStock(row: Cells): (tier: int)
    ensures 1 <= tier <= 3
    ensures tier == 1 <==> Get(row, Durability) > GoodScore && Get(row, Momentum) > GoodScore
    ensures tier == 2 <==> !(Get(row, Durability) > GoodScore && Get(row, Momentum) > GoodScore)
                           && Get(row, Valuation) > GoodScore
    ensures tier == 3 <==> !(Get(row, Durability) > GoodScore && Get(row, Momentum) > GoodScore)
                           && Get(row, Valuation) <= GoodScore
  {
    var durability := Get(row, Durability);
    var momentum := Get(row, Momentum);
    var valuation := Get(row, Valuation);
    if durability > GoodScore && momentum > GoodScore then 1
    else if valuation > GoodScore then 2
    else 3
  }

  /** A row without a durability or a momentum score is never tier 1. */
  lemma MissingScoreIsNeverTierOne(row: Cells)
    requires Durability !in row || Momentum !in row
    ensures CategorizeStock(row) != 1
  {
  }

  /** High valuation alone secures tier 2 or better, whatever the rest is. */
  lemma HighValuationSuffices(row: Cells)
    requires Get(row, Valuation) > GoodScore
    ensures CategorizeStock(row) <= 2
  {
  }

  /** The threshold is strict here but not on the tracked dashboard: scores
      of exactly 50 are tier 3 here and tier 1 there. */
  lemma FiftyIsNotGoodHere()
    ensures CategorizeStock(map[Durability := 50.0, Valuation := 50.0, Momentum := 50.0]) == 3
    ensures Signals.TierRank(50.0, 50.0, 50.0) == 1
  {
  }

  /** `sub` is `s` with some elements left out (matching greedily from
      the front). */
  predicate SubsequenceOf(sub: seq<string>, s: seq<string>)
  {
    if sub == [] then true
    else if s == [] then false
    else if sub[0] == s[0] then SubsequenceOf(sub[1..], s[1..])
    else SubsequenceOf(sub, s[1..])
  }

  /** The columns of `required` absent from `columns`, in `required` order. */
  function MissingFrom(required: seq<string>, columns: seq<string>): (missing: seq<string>)
    ensures |missing| <= |required|
    ensures forall c :: c in missing <==> c in required && c !in columns
  {
    if required == [] then []
    else (if required[0] in columns then [] else [required[0]]) + MissingFrom(required[1..], columns)
  }

  /** The report's warning list: the required columns the table lacks. */
  function MissingColumns(columns: seq<string>): seq<string>
  {
    MissingFrom(Required, columns)
  }

  /** The missing columns keep the order of the required list. */
  lemma {:induction false} MissingInRequiredOrder(required: seq<string>, columns: seq<string>)
    ensures SubsequenceOf(MissingFrom(required, columns), required)
  {
    if required != [] {
      MissingInRequiredOrder(required[1..], columns);
      var tail := MissingFrom(required[1..], columns);
      var missing := MissingFrom(required, columns);
      if required[0] in columns {
        assert missing == tail;
        if tail != [] {
          assert tail[0] in tail;
        }
      } else {
        assert missing[0] == required[0] && missing[1..] == tail;
      }
    }
  }

  /** The required columns the table lacks, exactly, in the required order. */
  lemma MissingColumnsExact(columns: seq<string>)
    ensures forall c :: c in MissingColumns(columns) <==> c in Required && c !in columns
    ensures SubsequenceOf(MissingColumns(columns), Required)
  {
    MissingInRequiredOrder(Required, columns);
  }

  /** A report row: its cells and its (rounded) average score. */
  datatype ReportRow = ReportRow(cells: Cells, average: real)

  /** Report order: tier ascending, then average score descending. */
  function RowBefore(a: ReportRow, b: ReportRow): bool
  {
    var ta := CategorizeStock(a.cells);
    var tb := CategorizeStock(b.cells);
    ta < tb || (ta == tb && a.average > b.average)
  }

  lemma RowOrderIsStrictWeak()
    ensures StrictWeakOrder(RowBefore)
  {
  }

  /** The reordered report: the same rows, tier ascending then average
      descending, rows with equal tier and average in table order. */
  function SortReport(rows: seq<ReportRow>): (sorted: seq<ReportRow>)
    ensures multiset(sorted) == multiset(rows)
    ensures forall i, j :: 0 <= i < j < |sorted| ==>
              var ti := CategorizeStock(sorted[i].cells);
              var tj := CategorizeStock(sorted[j].cells);
              ti < tj || (ti == tj && sorted[i].average >= sorted[j].average)
    ensures Stable(RowBefore, rows, sorted)
  {
    RowOrderIsStrictWeak();
    SortIsStable(RowBefore, rows);
    Sort(RowBefore, rows)
  }

  /** The category label of a tier. */
  function TierLabel(tier: int): (category: Option<string>)
    ensures category.Some? <==> 1 <= tier <= 3
  {
    if tier == 1 then Some("\U{1F525} Quality + Technicals")
    else if tier == 2 then Some("\U{1F4B0} High Value")
    else if tier == 3 then Some("\U{26A0}\U{FE0F} Neutral / Others")
    else None
  }

  /** Every row receives a category label. */
  lemma EveryRowIsLabelled(row: Cells)
    ensures TierLabel(CategorizeStock(row)).Some?
  {
  }
}

=== FILE: signals.dfy ===
/** The per-score signals of the tracked dashboard: the change badge, the
    "heat" streak, the score colour and the five-tier rank
    (Update_and_Track.py). */
module Signals {
  import opened Basics

  /** The threshold of a "green" score, shared by colouring and tiering. */
  const GoodScore: real := 50.0
  /** The threshold of an "orange" score. */
  const FairScore: real := 30.0

  predicate Good(score: real)
  {
    score >= GoodScore
  }

  /** Quality, valuation and technicals of one symbol: the scores of one run,
      as scraped or as stored. */
  datatype Scores = Scores(q: real, v: real, t: real)

  /** A change indicator: nothing, ▲amount or ▼amount. */
  datatype Badge = NoBadge | Up(amount: nat) | Down(amount: nat)

  /** The badge of the tracked dashboard. Only the last history value is
      consulted; an empty history or a current score of exactly 0 gives no
      badge; otherwise the sign of the change picks the arrow and its
      magnitude, truncated, is the amount. */
  function DiffBadge(current: real, history: seq<real>): (b: Badge)
    ensures |history| == 0 || current == 0.0 ==> b == NoBadge
    ensures |history| > 0 && current != 0.0 ==>
              var prev := history[|history| - 1];
              && (b.Up? <==> current > prev)
              && (b.Down? <==> current < prev)
              && (b.Up? ==> b.amount as real <= current - prev < b.amount as real + 1.0)
              && (b.Down? ==> b.amount as real <= prev - current < b.amount as real + 1.0)
  {
    if |history| == 0 || current == 0.0 then NoBadge
    else
      var diff := current - history[|history| - 1];
      if diff > 0.0 then Up(Trunc(diff))
      else if diff < 0.0 then Down(Trunc(Abs(diff)))
      else NoBadge
  }

  /** `s` is strictly increasing. */
  ghost predicate Rising(s: seq<real>)
  {
    forall i, j :: 0 <= i < j < |s| ==> s[i] < s[j]
  }

  /** The "heat" streak: the last two history values and the current one are
      three strictly rising observations. */
  function Heat(history: seq<real>, current: real): (hot: bool)
    ensures hot <==> |history| >= 2 && Rising((history + [current])[|history| - 2..])
  {
    var n := |history|;
    if n >= 2 then
      var run := (history + [current])[n - 2..];
      assert run == [history[n - 2], history[n - 1], current];
      assert Rising(run) <==> run[0] < run[1] < run[2] by {
        if run[0] < run[1] < run[2] {
          forall i, j | 0 <= i < j < |run|
            ensures run[i] < run[j]
          {
          }
        }
      }
      current > history[n - 1] > history[n - 2]
    else false
  }

  /** The colour a score is shown in. */
  datatype Color = Green | Orange | Red

  function ScoreColor(score: real): (c: Color)
    ensures c == Green <==> Good(score)
    ensures c == Red <==> score < FairScore
  {
    if Good(score) then Green
    else if score >= FairScore then Orange
    else Red
  }

  /** How many of the three scores are good. */
  function GoodCount(q: real, v: real, t: real): nat
  {
    (if Good(q) then 1 else 0) + (if Good(v) then 1 else 0) + (if Good(t) then 1 else 0)
  }

  /** The five-tier rank, first matching rule wins. Stated without the rule
      order: tiers 1-3 are the triples with at least two good scores (all
      three; quality and technicals; valuation and exactly one other), and
      the rest split on a total of 90, i.e. an average of 30. */
  function TierRank(q: real, v: real, t: real): (tier: int)
    ensures 1 <= tier <= 5
    ensures tier == 1 <==> GoodCount(q, v, t) == 3
    ensures tier == 2 <==> Good(q) && Good(t) && !Good(v)
    ensures tier == 3 <==> Good(v) && (Good(q) != Good(t))
    ensures tier <= 3 <==> GoodCount(q, v, t) >= 2
    ensures tier == 4 <==> GoodCount(q, v, t) <= 1 && q + v + t >= 90.0
    ensures tier == 5 <==> GoodCount(q, v, t) <= 1 && q + v + t < 90.0
  {
    var gq, gv, gt := Good(q), Good(v), Good(t);
    if gq && gv && gt then 1
    else if gq && gt then 2
    else if gv && (gq || gt) then 3
    else if (q + v + t) / 3.0 >= FairScore then 4
    else 5
  }

  /** Colours and tiers share their threshold: a triple is tier 1 exactly
      when all three scores are shown green. */
  lemma AllGreenIsTierOne(q: real, v: real, t: real)
    ensures TierRank(q, v, t) == 1
            <==> ScoreColor(q) == Green && ScoreColor(v) == Green && ScoreColor(t) == Green
  {
  }
}

=== FILE: stable_sort.dfy ===
/** A stable sort, as Python's `list.sort(key=...)` and pandas' multi-column
    `sort_values` perform it. The order is given by `lt(a, b)`, "a's key is
    strictly smaller than b's"; `reverse=True` is a reversed `lt`, which keeps
    equal keys in their original order just as Python does. */
module StableSort {

  /** `lt` is a strict weak order: irreflexive, transitive, and
      "incomparable" is transitive too (every key-induced order is one). */
  ghost predicate StrictWeakOrder<T(!new)>(lt: (T, T) -> bool)
  {
    && (forall a :: !lt(a, a))
    && (forall a, b, c :: lt(a, b) && lt(b, c) ==> lt(a, c))
    && (forall a, b, c :: !lt(a, b) && !lt(b, c) ==> !lt(a, c))
  }

  /** No element is strictly smaller than one placed before it. */
  ghost predicate Sorted<T>(lt: (T, T) -> bool, s: seq<T>)
  {
    forall i, j :: 0 <= i < j < |s| ==> !lt(s[j], s[i])
  }

  /** Neither key is smaller: the sort must keep the two in input order. */
  predicate Tied<T>(lt: (T, T) -> bool, a: T, b: T)
  {
    !lt(a, b) && !lt(b, a)
  }

  /** The elements of `s` tied with `k`, in the order they appear in `s`. */
  function TiedWith<T>(lt: (T, T) -> bool, s: seq<T>, k: T): seq<T>
  {
    if s == [] then []
    else (if Tied(lt, s[0], k) then [s[0]] else []) + TiedWith(lt, s[1..], k)
  }

  /** `output` keeps every group of tied elements of `input` in its input order. */
  ghost predicate Stable<T(!new)>(lt: (T, T) -> bool, input: seq<T>, output: seq<T>)
  {
    forall k :: TiedWith(lt, output, k) == TiedWith(lt, input, k)
  }

  /** Putting a lower bound in front of a sorted sequence keeps it sorted. */
  lemma SortedCons<T>(lt: (T, T) -> bool, y: T, t: seq<T>)
    requires Sorted(lt, t)
    requires forall j :: 0 <= j < |t| ==> !lt(t[j], y)
    ensures Sorted(lt, [y] + t)
  {
    forall i, j | 0 <= i < j < |[y] + t|
      ensures !lt(([y] + t)[j], ([y] + t)[i])
    {
      if i > 0 {
        assert ([y] + t)[i] == t[i - 1];
      }
      assert ([y] + t)[j] == t[j - 1];
    }
  }

  /** Inserts `x` into the sorted `s` ahead of every element not smaller
      than it, so `x` goes before the elements it is tied with. */
  function Insert<T(!new)>(lt: (T, T) -> bool, x: T, s: seq<T>): (r: seq<T>)
    requires StrictWeakOrder(lt)
    requires Sorted(lt, s)
    ensures multiset(r) == multiset(s) + multiset{x}
    ensures Sorted(lt, r)
  {
    if s == [] || !lt(s[0], x) then
      assert forall j :: 0 <= j < |s| ==> !lt(s[j], x) by {
        forall j | 0 <= j < |s|
          ensures !lt(s[j], x)
        {
          if j > 0 {
            assert !lt(s[j], s[0]);
          }
        }
      }
      SortedCons(lt, x, s);
      [x] + s
    else
      var rest := Insert(lt, x, s[1..]);
      assert s == [s[0]] + s[1..];
      assert forall j :: 0 <= j < |rest| ==> !lt(rest[j], s[0]) by {
        forall j | 0 <= j < |rest|
          ensures !lt(rest[j], s[0])
        {
          assert rest[j] in multiset(rest);
          if rest[j] != x {
            assert rest[j] in multiset(s[1..]);
            var k :| 0 <= k < |s[1..]| && s[1..][k] == rest[j];
            assert s[k + 1] == rest[j];
          }
        }
      }
      SortedCons(lt, s[0], rest);
      [s[0]] + rest
  }

  /** Sorts `s` by `lt`: a sorted permutation of `s`. */
  function Sort<T(!new)>(lt: (T, T) -> bool, s: seq<T>): (r: seq<T>)
    requires StrictWeakOrder(lt)
    ensures multiset(r) == multiset(s)
    ensures |r| == |s|
    ensures Sorted(lt, r)
  {
    if s == [] then []
    else
      assert s == [s[0]] + s[1..];
      Insert(lt, s[0], Sort(lt, s[1..]))
  }

  /** Two elements one strictly below the other are never tied with the
      same element. */
  lemma TiedExclusive<T(!new)>(lt: (T, T) -> bool, a: T, b: T, k: T)
    requires StrictWeakOrder(lt)
    requires lt(a, b)
    ensures !(Tied(lt, a, k) && Tied(lt, b, k))
  {
  }

  lemma TiedWithCons<T>(lt: (T, T) -> bool, x: T, s: seq<T>, k: T)
    ensures TiedWith(lt, [x] + s, k) == (if Tied(lt, x, k) then [x] else []) + TiedWith(lt, s, k)
  {
    assert ([x] + s)[1..] == s;
  }

  /** Inserting `x` puts it in front of the elements it is tied with and
      leaves every other tie group unchanged. */
  lemma {:induction false} InsertTied<T(!new)>(lt: (T, T) -> bool, x: T, s: seq<T>, k: T)
    requires StrictWeakOrder(lt)
    requires Sorted(lt, s)
    ensures TiedWith(lt, Insert(lt, x, s), k)
            == (if Tied(lt, x, k) then [x] else []) + TiedWith(lt, s, k)
  {
    if s == [] || !lt(s[0], x) {
      TiedWithCons(lt, x, s, k);
    } else {
      var rest := Insert(lt, x, s[1..]);
      var tx := if Tied(lt, x, k) then [x] else [];
      var t0 := if Tied(lt, s[0], k) then [s[0]] else [];
      var tail := TiedWith(lt, s[1..], k);
      assert Insert(lt, x, s) == [s[0]] + rest;
      InsertTied(lt, x, s[1..], k);
      assert TiedWith(lt, rest, k) == tx + tail;
      TiedWithCons(lt, s[0], rest, k);
      assert TiedWith(lt, Insert(lt, x, s), k) == t0 + (tx + tail);
      assert TiedWith(lt, s, k) == t0 + tail;
      TiedExclusive(lt, s[0], x, k);
      SwapBesideEmpty(t0, tx, tail);
    }
  }

  /** Two pieces of which one is empty can be put in either order. */
  lemma SwapBesideEmpty<T>(a: seq<T>, b: seq<T>, c: seq<T>)
    requires a == [] || b == []
    ensures a + (b + c) == b + (a + c)
  {
    if a == [] {
      assert a + (b + c) == b + c == b + (a + c);
    } else {
      assert a + (b + c) == a + c == b + (a + c);
    }
  }

  /** The sort is stable: tied elements keep their input order. */
  lemma {:induction false} SortIsStable<T(!new)>(lt: (T, T) -> bool, s: seq<T>)
    requires StrictWeakOrder(lt)
    ensures Stable(lt, s, Sort(lt, s))
  {
    if s != [] {
      SortIsStable(lt, s[1..]);
      forall k
        ensures TiedWith(lt, Sort(lt, s), k) == TiedWith(lt, s, k)
      {
        InsertTied(lt, s[0], Sort(lt, s[1..]), k);
        TiedWithCons(lt, s[0], s[1..], k);
        assert s == [s[0]] + s[1..];
      }
    }
  }

  /** The first `n` elements of the sorted order are the `n` smallest: every
      element of `s` left out of the prefix is no smaller than any kept. */
  lemma SortedPrefixIsSmallest<T(!new)>(lt: (T, T) -> bool, s: seq<T>, n: nat)
    requires StrictWeakOrder(lt)
    requires n <= |s|
    ensures forall i, x :: 0 <= i < n && x in s && x !in Sort(lt, s)[..n]
                           ==> !lt(x, Sort(lt, s)[i])
  {
    var r := Sort(lt, s);
    forall i, x | 0 <= i < n && x in s && x !in r[..n]
      ensures !lt(x, r[i])
    {
      assert x in multiset(r);
      var j :| 0 <= j < |r| && r[j] == x;
    }
  }

  /** A prefix holds each element at most as often as the whole does. */
  lemma PrefixIsSubMultiset<T>(s: seq<T>, n: nat)
    requires n <= |s|
    ensures multiset(s[..n]) <= multiset(s)
    ensures forall i :: 0 <= i < n ==> s[..n][i] in s
  {
    assert s == s[..n] + s[n..];
    assert multiset(s) == multiset(s[..n]) + multiset(s[n..]);
  }
}

=== FILE: sweep.dfy ===
/** The shape of the dashboard's per-card loop, independent of what a card
    holds: one pass over the items in page order that renders a card for
    each, keeps the rows some items contribute, and writes one dictionary
    entry per item (a later write of the same key replaces the earlier). */
module Sweep {
  import opened Basics

  /** The values `f` keeps from `xs`, in order. */
  function Collect<A, B>(xs: seq<A>, f: A -> Option<B>): (ys: seq<B>)
    ensures |ys| <= |xs|
  {
    if xs == [] then [] else Kept(f(xs[0])) + Collect(xs[1..], f)
  }

  /** The row one item contributes: its value, or nothing. */
  function Kept<B>(o: Option<B>): seq<B>
  {
    match o
    case Some(b) => [b]
    case None => []
  }

  /** Collecting from two pieces one after the other is collecting from the
      whole: the kept values appear in item order. */
  lemma {:induction false} CollectAppend<A, B>(xs: seq<A>, ys: seq<A>, f: A -> Option<B>)
    ensures Collect(xs + ys, f) == Collect(xs, f) + Collect(ys, f)
  {
    if xs == [] {
      assert xs + ys == ys;
    } else {
      var zs := xs + ys;
      assert zs[0] == xs[0] && zs[1..] == xs[1..] + ys;
      assert Collect(zs, f) == Kept(f(xs[0])) + Collect(xs[1..] + ys, f);
      CollectAppend(xs[1..], ys, f);
    }
  }

  lemma CollectSnoc<A, B>(xs: seq<A>, x: A, f: A -> Option<B>)
    ensures Collect(xs + [x], f) == Collect(xs, f) + Kept(f(x))
  {
    CollectAppend(xs, [x], f);
    assert [x][1..] == [];
  }

  /** Every kept value comes from some item... */
  lemma {:induction false} CollectOrigin<A, B>(xs: seq<A>, f: A -> Option<B>)
    ensures forall y :: y in Collect(xs, f) ==> exists i :: 0 <= i < |xs| && f(xs[i]) == Some(y)
  {
    if xs != [] {
      CollectOrigin(xs[1..], f);
      forall y | y in Collect(xs, f)
        ensures exists i :: 0 <= i < |xs| && f(xs[i]) == Some(y)
      {
        if y in Collect(xs[1..], f) {
          var i :| 0 <= i < |xs| - 1 && f(xs[1..][i]) == Some(y);
          assert xs[i + 1] == xs[1..][i];
        } else {
          assert f(xs[0]) == Some(y);
        }
      }
    }
  }

  /** ...and every item that yields a value has it kept. */
  lemma {:induction false} CollectComplete<A, B>(xs: seq<A>, f: A -> Option<B>)
    ensures forall i :: 0 <= i < |xs| && f(xs[i]).Some? ==> f(xs[i]).value in Collect(xs, f)
  {
    if xs != [] {
      CollectComplete(xs[1..], f);
      forall i | 0 <= i < |xs| && f(xs[i]).Some?
        ensures f(xs[i]).value in Collect(xs, f)
      {
        if i > 0 {
          assert xs[1..][i - 1] == xs[i];
        }
      }
    }
  }

  /** The loop: `cards` holds the card of every item in order, `rows` the kept
      rows in order, and `written` has exactly the items as keys, each mapped
      to its entry. */
  method Visit<A(==), C, M, R>(xs: seq<A>, card: A -> C, row: A -> Option<M>, entry: A -> R)
    returns (cards: seq<C>, rows: seq<M>, written: map<A, R>)
    ensures |cards| == |xs|
    ensures forall i :: 0 <= i < |xs| ==> cards[i] == card(xs[i])
    ensures rows == Collect(xs, row)
    ensures forall a :: a in written <==> a in xs
    ensures forall a :: a in written ==> written[a] == entry(a)
  {
    cards, rows, written := [], [], map[];
    var i := 0;
    while i < |xs|
      invariant 0 <= i <= |xs|
      invariant |cards| == i
      invariant forall k :: 0 <= k < i ==> cards[k] == card(xs[k])
      invariant rows == Collect(xs[..i], row)
      invariant forall a :: a in written <==> a in xs[..i]
      invariant forall a :: a in written ==> written[a] == entry(a)
    {
      var x := xs[i];
      assert xs[..i + 1] == xs[..i] + [x];
      CollectSnoc(xs[..i], x, row);
      cards := cards + [card(x)];
      rows := rows + Kept(row(x));
      written := written[x := entry(x)];
      i := i + 1;
    }
    assert xs[..i] == xs;
  }

  /** Item `i` is the last one of `xs` with its key. */
  predicate LastOfKey<A, K(==)>(xs: seq<A>, key: A -> K, i: int)
    requires 0 <= i < |xs|
  {
    forall j :: i < j < |xs| ==> key(xs[j]) != key(xs[i])
  }

  /** A dictionary written once per item in order, `d[key(x)] = entry(x)`. */
  function LastWins<A, K(==), R>(xs: seq<A>, key: A -> K, entry: A -> R): map<K, R>
  {
    if xs == [] then map[]
    else LastWins(xs[..|xs| - 1], key, entry)[key(xs[|xs| - 1]) := entry(xs[|xs| - 1])]
  }

  /** The keys written are exactly the items' keys... */
  lemma {:induction false} LastWinsKeys<A, K, R>(xs: seq<A>, key: A -> K, entry: A -> R, k: K)
    ensures k in LastWins(xs, key, entry) <==> exists i :: 0 <= i < |xs| && key(xs[i]) == k
  {
    if xs != [] {
      var n := |xs| - 1;
      LastWinsKeys(xs[..n], key, entry, k);
      if k in LastWins(xs[..n], key, entry) {
        var i :| 0 <= i < n && key(xs[..n][i]) == k;
        assert xs[i] == xs[..n][i];
      }
      if exists i :: 0 <= i < |xs| && key(xs[i]) == k {
        var i :| 0 <= i < |xs| && key(xs[i]) == k;
        if i < n {
          assert xs[..n][i] == xs[i];
        }
      }
    }
  }

  /** `LastWinsKeys` for every key at once. */
  lemma LastWinsDomain<A, K, R>(xs: seq<A>, key: A -> K, entry: A -> R)
    ensures forall k :: k in LastWins(xs, key, entry) <==> exists i :: 0 <= i < |xs| && key(xs[i]) == k
  {
    forall k {
      LastWinsKeys(xs, key, entry, k);
    }
  }

  /** ...and each holds the entry of the last item with that key. */
  lemma {:induction false} LastWinsValue<A, K, R>(xs: seq<A>, key: A -> K, entry: A -> R, i: int)
    requires 0 <= i < |xs| && LastOfKey(xs, key, i)
    ensures key(xs[i]) in LastWins(xs, key, entry)
    ensures LastWins(xs, key, entry)[key(xs[i])] == entry(xs[i])
  {
    var n := |xs| - 1;
    if i < n {
      assert xs[..n][i] == xs[i];
      assert LastOfKey(xs[..n], key, i) by {
        forall j | i < j < n
          ensures key(xs[..n][j]) != key(xs[..n][i])
        {
          assert xs[..n][j] == xs[j];
        }
      }
      LastWinsValue(xs[..n], key, entry, i);
    }
  }
}

=== FILE: text.dfy ===
/** The few Python string operations the scripts rely on: `str.strip()`,
    `str.lower()` and the substring test `pat in s`. */
module Text {

  /** Characters for which Python's `str.isspace()` holds, and which
      `str.strip()` with no argument therefore removes. */
  predicate IsSpace(c: char)
  {
    || c == ' ' || ('\t' <= c <= '\r')
    || ('\U{1C}' <= c <= '\U{1F}') || c == '\U{85}' || c == '\U{A0}'
    || c == '\U{1680}' || ('\U{2000}' <= c <= '\U{200A}')
    || c == '\U{2028}' || c == '\U{2029}' || c == '\U{202F}'
    || c == '\U{205F}' || c == '\U{3000}'
  }

  predicate AllSpace(s: string)
  {
    forall i :: 0 <= i < |s| ==> IsSpace(s[i])
  }

  /** Drops leading whitespace: what is left is a suffix of `s`, everything
      dropped is whitespace, and what is left does not start with any. */
  function StripLeft(s: string): (r: string)
    ensures |r| <= |s| && r == s[|s| - |r|..]
    ensures AllSpace(s[..|s| - |r|])
    ensures r == [] || !IsSpace(r[0])
  {
    if s == [] || !IsSpace(s[0]) then s
    else
      var r := StripLeft(s[1..]);
      assert s[1..][..|s| - 1 - |r|] == s[1..|s| - |r|];
      r
  }

  /** Drops trailing whitespace; the mirror image of `StripLeft`. */
  function StripRight(s: string): (r: string)
    ensures |r| <= |s| && r == s[..|r|]
    ensures AllSpace(s[|r|..])
    ensures r == [] || !IsSpace(r[|r| - 1])
  {
    if s == [] || !IsSpace(s[|s| - 1]) then s
    else
      var r := StripRight(s[..|s| - 1]);
      assert s[..|s| - 1][|r|..] == s[|r|..|s| - 1];
      r
  }

  /** `r` is the infix of `s` starting at `i`, and only whitespace lies
      outside it. */
  ghost predicate TrimmedAt(s: string, r: string, i: int)
  {
    0 <= i <= |s| - |r| && r == s[i..i + |r|] && AllSpace(s[..i]) && AllSpace(s[i + |r|..])
  }

  /** Python's `s.strip()`: the infix of `s` left after removing whitespace
      at both ends. */
  function Strip(s: string): (r: string)
    ensures exists i :: TrimmedAt(s, r, i)
    ensures r == [] || (!IsSpace(r[0]) && !IsSpace(r[|r| - 1]))
  {
    var l := StripLeft(s);
    var r := StripRight(l);
    InfixOfSuffix(s, l, r);
    assert TrimmedAt(s, r, |s| - |l|);
    r
  }

  /** A prefix `r` of a suffix `l` of `s` is an infix of `s`. */
  lemma InfixOfSuffix(s: string, l: string, r: string)
    requires |l| <= |s| && l == s[|s| - |l|..]
    requires |r| <= |l| && r == l[..|r|]
    ensures var i := |s| - |l|;
            r == s[i..i + |r|] && s[i + |r|..] == l[|r|..]
  {
  }

  /** A string with no whitespace at either end is left as it is. */
  lemma StripTrimmed(s: string)
    requires s == [] || (!IsSpace(s[0]) && !IsSpace(s[|s| - 1]))
    ensures Strip(s) == s
  {
    assert StripLeft(s) == s;
    assert StripRight(s) == s;
  }

  /** Stripping twice is the same as stripping once. */
  lemma StripIdempotent(s: string)
    ensures Strip(Strip(s)) == Strip(s)
  {
    StripTrimmed(Strip(s));
  }

  /** Python's `s.lower()`, restricted to the ASCII capitals. */
  function Lower(s: string): (r: string)
    ensures |r| == |s|
    ensures forall i :: 0 <= i < |s| && 'A' <= s[i] <= 'Z' ==> r[i] == (s[i] as int + 32) as char
    ensures forall i :: 0 <= i < |s| && !('A' <= s[i] <= 'Z') ==> r[i] == s[i]
  {
    seq(|s|, i requires 0 <= i < |s| => if 'A' <= s[i] <= 'Z' then (s[i] as int + 32) as char else s[i])
  }

  /** `pat` occurs in `s` at position `i`. */
  ghost predicate OccursAt(s: string, pat: string, i: int)
  {
    0 <= i && i + |pat| <= |s| && s[i..i + |pat|] == pat
  }

  /** An occurrence past the first position is an occurrence in the tail. */
  lemma OccursInTail(s: string, pat: string, i: int)
    requires |s| > 0 && 0 <= i
    ensures OccursAt(s, pat, i + 1) <==> OccursAt(s[1..], pat, i)
  {
    if 0 <= i && i + 1 + |pat| <= |s| {
      assert s[i + 1..i + 1 + |pat|] == s[1..][i..i + |pat|];
    }
  }

  /** Python's `pat in s`: some position of `s` starts a copy of `pat`. */
  function Contains(s: string, pat: string): (r: bool)
    ensures r <==> exists i :: OccursAt(s, pat, i)
  {
    if pat <= s then
      assert OccursAt(s, pat, 0);
      true
    else if s == [] then
      false
    else
      var r := Contains(s[1..], pat);
      assert r <==> exists i :: OccursAt(s, pat, i) by {
        if r {
          var i :| OccursAt(s[1..], pat, i);
          OccursInTail(s, pat, i);
        } else {
          forall i | OccursAt(s, pat, i)
            ensures false
          {
            OccursInTail(s, pat, i - 1);
          }
        }
      }
      r
  }
}

=== FILE: tracker.dfy ===
/** One run of the tracked dashboard (`main` of Update_and_Track.py) with
    the browser, the page markup and the files replaced by values: the
    scraped scores and the page grid come in, the ordered cards, the top
    movers and the new content of the history file go out. */
module Tracker {
  import opened Basics
  import opened History
  import opened Signals
  import opened StableSort
  import opened Sweep
  import Text

  /** A symbol on the grid that the scrape did not reach scores (0, 0, 0). */
  const Unscraped := Scores(0.0, 0.0, 0.0)

  /** The scores read from a widget's percentage numbers: three numbers give
      all three scores, one or two give quality only, none give zeros. */
  function ScoresFromWidget(nums: seq<real>): (s: Scores)
    ensures |nums| >= 3 ==> s == Scores(nums[0], nums[1], nums[2])
    ensures 1 <= |nums| < 3 ==> s == Scores(nums[0], 0.0, 0.0)
    ensures |nums| == 0 ==> s == Unscraped
  {
    if |nums| >= 3 then Scores(nums[0], nums[1], nums[2])
    else if |nums| >= 1 then Scores(nums[0], 0.0, 0.0)
    else Unscraped
  }

  /** This run's scores for `sym`. */
  function Observed(current: map<string, Scores>, sym: string): Scores
  {
    if sym in current then current[sym] else Unscraped
  }

  /** The history of `sym` before this run. */
  function Past(history: Store, sym: string): Record
  {
    if sym in history then history[sym] else EmptyRecord
  }

  /** Adds this run's observation to every series of a record. */
  function PushRecord(rec: Record, s: Scores): Record
  {
    Record(Push(rec.q, s.q), Push(rec.v, s.v), Push(rec.t, s.t))
  }

  /** After a run each series of a record is one to three long and ends with
      this run's score. */
  lemma PushRecordBounded(rec: Record, s: Scores)
    ensures var r := PushRecord(rec, s);
            && 1 <= |r.q| <= Window && r.q[|r.q| - 1] == s.q
            && 1 <= |r.v| <= Window && r.v[|r.v| - 1] == s.v
            && 1 <= |r.t| <= Window && r.t[|r.t| - 1] == s.t
  {
    var q, v, t := Push(rec.q, s.q), Push(rec.v, s.v), Push(rec.t, s.t);
    assert PushRecord(rec, s) == Record(q, v, t);
  }

  /** Threshold of a quality or technicals change that makes a mover. */
  const MoverThreshold: nat := 5

  /** A top-mover row: the truncated changes of quality and technicals. */
  datatype Mover = Mover(symbol: string, qDiff: int, tDiff: int)

  /** The key movers are ranked by. */
  function Magnitude(m: Mover): nat
  {
    Max(IntAbs(m.qDiff), IntAbs(m.tDiff))
  }

  /** The value a change is measured from: the last one in the history, or
      the current one itself when there is none. */
  function Reference(h: seq<real>, current: real): (r: real)
    ensures |h| == 0 ==> r == current
    ensures |h| > 0 ==> r == h[|h| - 1]
  {
    if |h| > 0 then h[|h| - 1] else current
  }

  /** Quality or technicals moved by at least 5 from a recorded value;
      valuation plays no part, and a series without history never moves. */
  predicate Moved(cur: Scores, rec: Record)
  {
    || (|rec.q| > 0 && Abs(cur.q - rec.q[|rec.q| - 1]) >= MoverThreshold as real)
    || (|rec.t| > 0 && Abs(cur.t - rec.t[|rec.t| - 1]) >= MoverThreshold as real)
  }

  /** The mover check: flagged exactly when the symbol moved, with the
      changes stored truncated, so a mover always shows a change of at
      least 5. */
  function MoverOf(sym: string, cur: Scores, rec: Record): (m: Option<Mover>)
    ensures m.Some? <==> Moved(cur, rec)
    ensures m.Some? ==> && m.value.symbol == sym
                        && m.value.qDiff == Trunc(cur.q - Reference(rec.q, cur.q))
                        && m.value.tDiff == Trunc(cur.t - Reference(rec.t, cur.t))
                        && Magnitude(m.value) >= MoverThreshold
  {
    var qLast := Reference(rec.q, cur.q);
    var tLast := Reference(rec.t, cur.t);
    if Abs(cur.q - qLast) >= MoverThreshold as real || Abs(cur.t - tLast) >= MoverThreshold as real then
      TruncReachesThreshold(cur.q - qLast, MoverThreshold);
      TruncReachesThreshold(cur.t - tLast, MoverThreshold);
      Some(Mover(sym, Trunc(cur.q - qLast), Trunc(cur.t - tLast)))
    else None
  }

  /** A rendered card: the current scores, the rank key and the badges.
      Valuation has a change badge but no streak. */
  datatype Card = Card(symbol: string, scores: Scores, tier: int, total: real,
                       qBadge: Badge, vBadge: Badge, tBadge: Badge,
                       qHeat: bool, tHeat: bool)

  function CardFor(sym: string, cur: Scores, rec: Record): (c: Card)
    ensures c.symbol == sym && c.scores == cur
    ensures 1 <= c.tier <= 5
    ensures c.tier == 1 <==> Good(cur.q) && Good(cur.v) && Good(cur.t)
    ensures c.total == cur.q + cur.v + cur.t
    ensures |rec.q| == 0 ==> c.qBadge == NoBadge && !c.qHeat
    ensures |rec.v| == 0 ==> c.vBadge == NoBadge
    ensures |rec.t| == 0 ==> c.tBadge == NoBadge && !c.tHeat
    ensures c.qHeat && cur.q != 0.0 ==> c.qBadge.Up?
    ensures c.tHeat && cur.t != 0.0 ==> c.tBadge.Up?
  {
    Card(sym, cur, TierRank(cur.q, cur.v, cur.t), cur.q + cur.v + cur.t,
         DiffBadge(cur.q, rec.q), DiffBadge(cur.v, rec.v), DiffBadge(cur.t, rec.t),
         Heat(rec.q, cur.q), Heat(rec.t, cur.t))
  }

  /** The symbol a grid card carries, stripped; none without a symbol tag. */
  function SymbolOf(tag: Option<string>): Option<string>
  {
    match tag
    case Some(text) => Some(Text.Strip(text))
    case None => None
  }

  /** The symbols of the grid's cards in page order. */
  function GridSymbols(grid: seq<Option<string>>): (syms: seq<string>)
    ensures |syms| <= |grid|
    ensures forall i :: 0 <= i < |grid| && grid[i].Some? ==> Text.Strip(grid[i].value) in syms
    ensures forall s :: s in syms ==>
              exists i :: 0 <= i < |grid| && grid[i].Some? && Text.Strip(grid[i].value) == s
  {
    CollectOrigin(grid, SymbolOf);
    CollectComplete(grid, SymbolOf);
    Collect(grid, SymbolOf)
  }

  /** The card of `sym` in this run. */
  function CardOf(current: map<string, Scores>, history: Store): string -> Card
  {
    sym => CardFor(sym, Observed(current, sym), Past(history, sym))
  }

  /** The mover row of `sym` in this run, if it moved. */
  function MoverRowOf(current: map<string, Scores>, history: Store): string -> Option<Mover>
  {
    sym => MoverOf(sym, Observed(current, sym), Past(history, sym))
  }

  /** The history entry the run writes for `sym`: the old one (or an empty
      one) pushed with this run's scores (or zeros). */
  function NextRecord(current: map<string, Scores>, history: Store): string -> Record
  {
    sym => PushRecord(Past(history, sym), Observed(current, sym))
  }

  /** The movers among the grid symbols, in page order. */
  function GridMovers(syms: seq<string>, current: map<string, Scores>, history: Store): seq<Mover>
  {
    Collect(syms, MoverRowOf(current, history))
  }

  /** Every mover is a grid symbol that already had history, and a grid
      symbol with history is a mover exactly when it moved by at least 5. */
  lemma MoversHaveHistory(syms: seq<string>, current: map<string, Scores>, history: Store)
    ensures forall m :: m in GridMovers(syms, current, history) ==>
              && m.symbol in syms && m.symbol in history
              && Magnitude(m) >= MoverThreshold
    ensures forall i :: 0 <= i < |syms| && syms[i] in history
                        && Moved(Observed(current, syms[i]), history[syms[i]]) ==>
              exists m :: m in GridMovers(syms, current, history) && m.symbol == syms[i]
  {
    var f := MoverRowOf(current, history);
    CollectOrigin(syms, f);
    forall m | m in GridMovers(syms, current, history)
      ensures m.symbol in syms && m.symbol in history
    {
      var i :| 0 <= i < |syms| && f(syms[i]) == Some(m);
    }
    CollectComplete(syms, f);
    forall i | 0 <= i < |syms| && syms[i] in history
               && Moved(Observed(current, syms[i]), history[syms[i]])
      ensures exists m :: m in GridMovers(syms, current, history) && m.symbol == syms[i]
    {
      assert Past(history, syms[i]) == history[syms[i]];
      var m := f(syms[i]).value;
      assert m in GridMovers(syms, current, history) && m.symbol == syms[i];
    }
  }

  /** A symbol without history gets no badge, no streak, and is no mover. */
  lemma NewSymbolIsQuiet(current: map<string, Scores>, history: Store, sym: string)
    requires sym !in history
    ensures var c := CardOf(current, history)(sym);
            && c.qBadge == NoBadge && c.vBadge == NoBadge && c.tBadge == NoBadge
            && !c.qHeat && !c.tHeat
    ensures MoverRowOf(current, history)(sym) == None
  {
  }

  /** A grid symbol the scrape missed is shown with zeros and ranked last,
      without badges... */
  lemma UnscrapedSymbolRanksLast(current: map<string, Scores>, history: Store, sym: string)
    requires sym !in current
    ensures var c := CardOf(current, history)(sym);
            && c.scores == Unscraped && c.tier == 5 && c.total == 0.0
            && c.qBadge == NoBadge && c.vBadge == NoBadge && c.tBadge == NoBadge
  {
  }

  /** ...and its history is pushed as though it had scored (0, 0, 0). */
  lemma UnscrapedSymbolRecordsZeros(current: map<string, Scores>, history: Store, sym: string)
    requires sym !in current
    ensures NextRecord(current, history)(sym) == PushRecord(Past(history, sym), Unscraped)
  {
  }

  /** Card order: tier ascending, then total descending (the key
      `(tier, -total)`). */
  function CardBefore(a: Card, b: Card): bool
  {
    a.tier < b.tier || (a.tier == b.tier && a.total > b.total)
  }

  /** Mover order: larger magnitude first (`reverse=True` on the key). */
  function MoverBefore(a: Mover, b: Mover): bool
  {
    Magnitude(a) > Magnitude(b)
  }

  lemma CardOrderIsStrictWeak()
    ensures StrictWeakOrder(CardBefore)
  {
  }

  lemma MoverOrderIsStrictWeak()
    ensures StrictWeakOrder(MoverBefore)
  {
  }

  /** Number of movers the page shows. */
  const ShownMovers: nat := 10

  /** The movers' order: a stable sort by magnitude, largest first, so
      movers of equal magnitude keep their page order. */
  function OrderMovers(movers: seq<Mover>): (ordered: seq<Mover>)
    ensures multiset(ordered) == multiset(movers)
    ensures Sorted(MoverBefore, ordered)
    ensures Stable(MoverBefore, movers, ordered)
  {
    MoverOrderIsStrictWeak();
    SortIsStable(MoverBefore, movers);
    Sort(MoverBefore, movers)
  }

  /** The movers table: the first ten of the ordered movers. Each mover is
      shown at most as often as it occurs, largest first, and none left out
      is larger than one shown. */
  function TopMovers(movers: seq<Mover>): (top: seq<Mover>)
    ensures |top| == Min(|movers|, ShownMovers)
    ensures top == OrderMovers(movers)[..|top|]
    ensures multiset(top) <= multiset(movers)
    ensures forall i :: 0 <= i < |top| ==> top[i] in movers
    ensures forall i, j :: 0 <= i < j < |top| ==> Magnitude(top[i]) >= Magnitude(top[j])
    ensures forall i, x :: 0 <= i < |top| && x in movers && x !in top ==> Magnitude(x) <= Magnitude(top[i])
  {
    MoverOrderIsStrictWeak();
    var n := Min(|movers|, ShownMovers);
    TopOfSorted(movers, n);
    Sort(MoverBefore, movers)[..n]
  }

  /** The first `n` movers of the sort are taken from the list, in order of
      magnitude, and no mover left out is larger. */
  lemma TopOfSorted(movers: seq<Mover>, n: nat)
    requires n <= |movers|
    ensures StrictWeakOrder(MoverBefore)
    ensures var top := Sort(MoverBefore, movers)[..n];
            && multiset(top) <= multiset(movers)
            && (forall i :: 0 <= i < n ==> top[i] in movers)
            && (forall i, j :: 0 <= i < j < n ==> Magnitude(top[i]) >= Magnitude(top[j]))
            && (forall i, x :: 0 <= i < n && x in movers && x !in top ==> Magnitude(x) <= Magnitude(top[i]))
  {
    MoverOrderIsStrictWeak();
    var sorted := Sort(MoverBefore, movers);
    SortedPrefixIsSmallest(MoverBefore, movers, n);
    PrefixIsSubMultiset(sorted, n);
    assert forall i :: 0 <= i < n ==> sorted[..n][i] in multiset(sorted[..n]);
  }

  /** What a run produces. Without a grid on the page nothing is produced and
      nothing is saved. */
  datatype Outcome =
    | NoGrid
    | Page(cards: seq<Card>, topMovers: seq<Mover>, historyFile: Option<Store>)

  /** The cards of the grid symbols, in page order. */
  function GridCards(syms: seq<string>, current: map<string, Scores>, history: Store): (cards: seq<Card>)
    ensures |cards| == |syms|
    ensures forall i :: 0 <= i < |syms| ==> cards[i] == CardOf(current, history)(syms[i])
  {
    seq(|syms|, i requires 0 <= i < |syms| => CardOf(current, history)(syms[i]))
  }

  /** Two histories that agree on the grid's symbols. */
  predicate AgreeOn(syms: seq<string>, h1: Store, h2: Store)
  {
    forall s :: s in syms ==> (s in h1 <==> s in h2) && (s in h1 ==> h1[s] == h2[s])
  }

  /** History entries of symbols off the grid are never read: the cards, the
      movers and the written entries depend only on the grid's symbols. */
  lemma {:induction false} OffGridHistoryIsIgnored(syms: seq<string>, current: map<string, Scores>,
                                                   h1: Store, h2: Store)
    requires AgreeOn(syms, h1, h2)
    ensures GridCards(syms, current, h1) == GridCards(syms, current, h2)
    ensures GridMovers(syms, current, h1) == GridMovers(syms, current, h2)
    ensures forall s :: s in syms ==> NextRecord(current, h1)(s) == NextRecord(current, h2)(s)
  {
    forall s | s in syms
      ensures Past(h1, s) == Past(h2, s)
    {
    }
    if syms != [] {
      assert AgreeOn(syms[1..], h1, h2) by {
        forall s | s in syms[1..]
          ensures s in syms
        {
        }
      }
      OffGridHistoryIsIgnored(syms[1..], current, h1, h2);
      assert MoverRowOf(current, h1)(syms[0]) == MoverRowOf(current, h2)(syms[0]);
    }
  }

  /** The page's card order: a stable sort by tier, then total, so cards
      with the same tier and total keep their page order. */
  function OrderCards(cards: seq<Card>): (ordered: seq<Card>)
    ensures multiset(ordered) == multiset(cards)
    ensures Sorted(CardBefore, ordered)
    ensures Stable(CardBefore, cards, ordered)
  {
    CardOrderIsStrictWeak();
    SortIsStable(CardBefore, cards);
    Sort(CardBefore, cards)
  }

  /** The file is rewritten exactly when the grid had a symbol. */
  lemma SaveWhenGridHasSymbols(syms: seq<string>, newHistory: Store, onDisk: Option<Store>)
    requires forall s :: s in newHistory <==> s in syms
    ensures syms == [] ==> SaveHistory(newHistory, onDisk) == onDisk
    ensures syms != [] ==> SaveHistory(newHistory, onDisk) == Some(newHistory)
  {
    if syms != [] {
      assert syms[0] in newHistory;
    }
  }

  /** One run. The cards are those of the grid's cards that carry a symbol,
      stably sorted by tier, then total (a card without a symbol tag is
      dropped from the page); the movers table is the top ten; the history file gets the new
      history, which holds exactly the grid's symbols (so symbols missing
      from the grid drop out and grid symbols the scrape missed are recorded
      with zeros), unless the grid had no symbol and the file stays as it
      was. */
  method Run(grid: Option<seq<Option<string>>>, current: map<string, Scores>,
             history: Store, onDisk: Option<Store>) returns (out: Outcome)
    ensures grid.None? ==> out == NoGrid
    ensures grid.Some? ==> out.Page?
    ensures grid.Some? ==> out.cards == OrderCards(GridCards(GridSymbols(grid.value), current, history))
    ensures grid.Some? ==>
              out.topMovers == TopMovers(GridMovers(GridSymbols(grid.value), current, history))
    ensures grid.Some? && GridSymbols(grid.value) == [] ==> out.historyFile == onDisk
    ensures grid.Some? && GridSymbols(grid.value) != [] ==>
              && out.historyFile.Some?
              && (forall s :: s in out.historyFile.value <==> s in GridSymbols(grid.value))
              && (forall s :: s in out.historyFile.value ==>
                    out.historyFile.value[s] == NextRecord(current, history)(s))
  {
    if grid.None? {
      return NoGrid;
    }
    var syms := GridSymbols(grid.value);
    var cards, movers, newHistory :=
      Visit(syms, CardOf(current, history), MoverRowOf(current, history), NextRecord(current, history));
    assert cards == GridCards(syms, current, history);
    var ordered := OrderCards(cards);
    SaveWhenGridHasSymbols(syms, newHistory, onDisk);
    var file := SaveHistory(newHistory, onDisk);
    out := Page(ordered, TopMovers(movers), file);
  }
}

=== FILE: widgets.dfy ===
/** The ranked widget dashboard (main.py, and the same steps in
    Stocks_From_Trendlyne.py): widget lines are filtered and their symbols
    extracted, each stock gets its market cap, and the stocks are ranked by
    market cap, largest first. */
module Widgets {
  import opened Basics
  import opened StableSort
  import opened Sweep
  import Text

  /** The text that precedes a symbol in a widget URL. */
  const Marker: string := "Poppins/"

  /** The text a widget line must contain. */
  const WidgetTag: string := "trendlyne-widgets"

  /** The regular expression `Poppins/([^/]+)/` matches at `p` with a
      captured group of length `k`: the marker, `k >= 1` characters other
      than '/', then a '/'. */
  ghost predicate PatternAt(s: string, p: int, k: int)
  {
    && 0 <= p && 1 <= k && p + |Marker| + k < |s|
    && s[p..p + |Marker|] == Marker
    && (forall m :: p + |Marker| <= m < p + |Marker| + k ==> s[m] != '/')
    && s[p + |Marker| + k] == '/'
  }

  /** The length of the run of characters other than '/' starting at `i`. */
  function RunLength(s: string, i: nat): (n: nat)
    requires i <= |s|
    ensures i + n <= |s|
    ensures forall m :: i <= m < i + n ==> s[m] != '/'
    ensures i + n == |s| || s[i + n] == '/'
    decreases |s| - i
  {
    if i == |s| || s[i] == '/' then 0 else 1 + RunLength(s, i + 1)
  }

  /** The scan's test at `p`: the marker, then a non-empty run of non-'/'
      characters that a '/' ends. */
  predicate MatchAt(s: string, p: nat)
  {
    && p + |Marker| <= |s| && s[p..p + |Marker|] == Marker
    && var n := RunLength(s, p + |Marker|);
       n > 0 && p + |Marker| + n < |s|
  }

  /** The scan's test agrees with the pattern, and the pattern's group at a
      position can only be the whole run (the regex is greedy, and a shorter
      group would be followed by a character other than '/'). */
  lemma MatchAtIsPattern(s: string, p: nat)
    ensures MatchAt(s, p) <==> exists k :: PatternAt(s, p, k)
    ensures forall k :: PatternAt(s, p, k) ==> k == RunLength(s, p + |Marker|)
  {
    if MatchAt(s, p) {
      assert PatternAt(s, p, RunLength(s, p + |Marker|));
    }
    forall k | PatternAt(s, p, k)
      ensures k == RunLength(s, p + |Marker|)
    {
      var n := RunLength(s, p + |Marker|);
      assert !(k < n) && !(n < k);
    }
  }

  /** The leftmost position at or after `from` where the scan matches. */
  function FirstMatchFrom(s: string, from: nat): (r: Option<nat>)
    ensures r.None? ==> forall p: nat :: from <= p ==> !MatchAt(s, p)
    ensures r.Some? ==> from <= r.value && MatchAt(s, r.value)
                        && forall p: nat :: from <= p < r.value ==> !MatchAt(s, p)
    decreases |s| - from
  {
    if from + |Marker| > |s| then None
    else if MatchAt(s, from) then Some(from)
    else FirstMatchFrom(s, from + 1)
  }

  /** `re.search(r'Poppins/([^/]+)/', line).group(1)`: the group of the
      leftmost match, or none. It is absent exactly when the pattern
      matches nowhere; otherwise it is the group of a match with no match
      further left, so it is non-empty and free of '/'. */
  function Capture(line: string): (c: Option<string>)
    ensures c.None? <==> forall p, k :: !PatternAt(line, p, k)
    ensures c.Some? ==>
              exists p, k :: && PatternAt(line, p, k)
                             && c.value == line[p + |Marker|..p + |Marker| + k]
                             && forall q, j :: 0 <= q < p ==> !PatternAt(line, q, j)
    ensures c.Some? ==> |c.value| > 0 && '/' !in c.value
  {
    match FirstMatchFrom(line, 0)
    case None =>
      assert forall p, k :: !PatternAt(line, p, k) by {
        forall p, k | PatternAt(line, p, k)
          ensures false
        {
          MatchAtIsPattern(line, p);
        }
      }
      None
    case Some(p) =>
      var k := RunLength(line, p + |Marker|);
      var group := line[p + |Marker|..p + |Marker| + k];
      MatchAtIsPattern(line, p);
      assert PatternAt(line, p, k);
      assert forall q, j :: 0 <= q < p ==> !PatternAt(line, q, j) by {
        forall q, j | 0 <= q < p && PatternAt(line, q, j)
          ensures false
        {
          MatchAtIsPattern(line, q);
        }
      }
      assert '/' !in group by {
        forall m | 0 <= m < |group|
          ensures group[m] != '/'
        {
          assert group[m] == line[p + |Marker| + m];
        }
      }
      Some(group)
  }

  /** `extract_symbol`: the captured group, percent-decoded by `unquote`
      (a library routine, passed in). */
  function ExtractSymbol(line: string, unquote: string -> string): (sym: Option<string>)
    ensures sym.None? <==> Capture(line).None?
    ensures sym.Some? ==> sym.value == unquote(Capture(line).value)
  {
    match Capture(line)
    case None => None
    case Some(group) => Some(unquote(group))
  }

  /** A stock of the dashboard: its symbol, its widget markup and its market
      cap. */
  datatype Stock = Stock(symbol: string, code: string, mcap: real)

  /** The stock a line yields: a widget line with a non-empty extracted
      symbol, stored with the stripped line and a market cap of 0. */
  function StockOf(unquote: string -> string): string -> Option<Stock>
  {
    line =>
      if Text.Contains(line, WidgetTag) then
        match ExtractSymbol(line, unquote)
        case Some(sym) => if sym != [] then Some(Stock(sym, Text.Strip(line), 0.0)) else None
        case None => None
      else None
  }

  /** The stocks of the widget file, in file order. */
  function KeepStocks(lines: seq<string>, unquote: string -> string): (stocks: seq<Stock>)
    ensures |stocks| <= |lines|
    ensures forall i :: 0 <= i < |lines| && StockOf(unquote)(lines[i]).Some? ==>
              StockOf(unquote)(lines[i]).value in stocks
    ensures forall s :: s in stocks ==>
              && s.symbol != [] && s.mcap == 0.0
              && exists i :: 0 <= i < |lines| && Text.Contains(lines[i], WidgetTag)
                             && ExtractSymbol(lines[i], unquote) == Some(s.symbol)
                             && s.code == Text.Strip(lines[i])
  {
    CollectOrigin(lines, StockOf(unquote));
    CollectComplete(lines, StockOf(unquote));
    Collect(lines, StockOf(unquote))
  }

  /** A single line yields a stock exactly when it contains the widget tag
      and its symbol extracts to something non-empty; the stock holds that
      symbol, the stripped line and a market cap of 0. */
  lemma KeepOneLine(line: string, unquote: string -> string)
    ensures |KeepStocks([line], unquote)| <= 1
    ensures |KeepStocks([line], unquote)| == 1 <==>
              && Text.Contains(line, WidgetTag)
              && ExtractSymbol(line, unquote).Some?
              && ExtractSymbol(line, unquote).value != []
    ensures |KeepStocks([line], unquote)| == 1 ==>
              KeepStocks([line], unquote)[0]
                == Stock(ExtractSymbol(line, unquote).value, Text.Strip(line), 0.0)
  {
  }

  /** Line filtering works line by line: the stocks of a file are those of
      its first part followed by those of the rest. */
  lemma KeepStocksAppend(xs: seq<string>, ys: seq<string>, unquote: string -> string)
    ensures KeepStocks(xs + ys, unquote) == KeepStocks(xs, unquote) + KeepStocks(ys, unquote)
  {
    CollectAppend(xs, ys, StockOf(unquote));
  }

  /** The fetch step: every stock gets the market cap `capOf` reports for its
      symbol (0 when the lookup fails); nothing else changes. */
  function WithMarketCaps(stocks: seq<Stock>, capOf: string -> real): (r: seq<Stock>)
    ensures |r| == |stocks|
    ensures forall i :: 0 <= i < |stocks| ==>
              r[i] == Stock(stocks[i].symbol, stocks[i].code, capOf(stocks[i].symbol))
  {
    seq(|stocks|, i requires 0 <= i < |stocks| => stocks[i].(mcap := capOf(stocks[i].symbol)))
  }

  /** Market-cap order, largest first (`reverse=True` on the cap). */
  function CapBefore(a: Stock, b: Stock): bool
  {
    a.mcap > b.mcap
  }

  lemma CapOrderIsStrictWeak()
    ensures StrictWeakOrder(CapBefore)
  {
  }

  /** The sort: the same stocks, caps never increasing, equal caps in file
      order. */
  function SortByCap(stocks: seq<Stock>): (sorted: seq<Stock>)
    ensures multiset(sorted) == multiset(stocks)
    ensures forall i, j :: 0 <= i < j < |sorted| ==> sorted[i].mcap >= sorted[j].mcap
    ensures Stable(CapBefore, stocks, sorted)
  {
    CapOrderIsStrictWeak();
    SortIsStable(CapBefore, stocks);
    Sort(CapBefore, stocks)
  }

  /** The market cap as shown: "N/A", or whole crores (10^7 rupees). */
  datatype CapDisplay = NotAvailable | Crore(n: int)

  const RupeesPerCrore: real := 10000000.0

  /** "N/A" exactly when the cap is not positive; otherwise the cap divided
      by a crore, truncated. */
  function Display(mcap: real): (d: CapDisplay)
    ensures d.NotAvailable? <==> mcap <= 0.0
    ensures d.Crore? ==> 0 <= d.n && d.n as real * RupeesPerCrore <= mcap < (d.n + 1) as real * RupeesPerCrore
  {
    if mcap > 0.0 then Crore(Trunc(mcap / RupeesPerCrore)) else NotAvailable
  }

  /** A card of the page: its rank, the stock, and the cap as shown. */
  datatype RankedCard = RankedCard(rank: nat, stock: Stock, cap: CapDisplay)

  /** `enumerate(stocks, 1)`: the i-th stock (from 0) is ranked i + 1. */
  method Number(stocks: seq<Stock>) returns (cards: seq<RankedCard>)
    ensures |cards| == |stocks|
    ensures forall i :: 0 <= i < |stocks| ==>
              cards[i] == RankedCard(i + 1, stocks[i], Display(stocks[i].mcap))
  {
    cards := [];
    var rank := 1;
    while rank <= |stocks|
      invariant 1 <= rank <= |stocks| + 1
      invariant |cards| == rank - 1
      invariant forall i :: 0 <= i < rank - 1 ==>
                  cards[i] == RankedCard(i + 1, stocks[i], Display(stocks[i].mcap))
    {
      var item := stocks[rank - 1];
      cards := cards + [RankedCard(rank, item, Display(item.mcap))];
      rank := rank + 1;
    }
  }

  /** The stocks that `Number` gets once sorted, as a sequence of the
      cards' stocks. */
  function StocksOf(cards: seq<RankedCard>): (stocks: seq<Stock>)
    ensures |stocks| == |cards|
    ensures forall i :: 0 <= i < |cards| ==> stocks[i] == cards[i].stock
  {
    seq(|cards|, i requires 0 <= i < |cards| => cards[i].stock)
  }

  /** Sort and number: every stock once, largest cap first with ties in the
      given order, ranked 1, 2, ... and shown through `Display`. */
  method RankByCap(stocks: seq<Stock>) returns (cards: seq<RankedCard>)
    ensures |cards| == |stocks|
    ensures multiset(StocksOf(cards)) == multiset(stocks)
    ensures forall i :: 0 <= i < |cards| ==> cards[i].rank == i + 1
    ensures forall i :: 0 <= i < |cards| ==> cards[i].cap == Display(cards[i].stock.mcap)
    ensures forall i, j :: 0 <= i < j < |cards| ==> cards[i].stock.mcap >= cards[j].stock.mcap
    ensures Stable(CapBefore, stocks, StocksOf(cards))
  {
    var sorted := SortByCap(stocks);
    cards := Number(sorted);
    assert StocksOf(cards) == sorted;
  }

  /** One run: read the widget lines, fetch the caps, sort and number. The
      page lists every kept stock once, with its fetched cap shown as "N/A"
      or in crores, largest cap first and ranked 1, 2, ... in that order. */
  method Dashboard(lines: seq<string>, unquote: string -> string, capOf: string -> real)
    returns (cards: seq<RankedCard>)
    ensures var fetched := WithMarketCaps(KeepStocks(lines, unquote), capOf);
            && |cards| == |fetched|
            && multiset(StocksOf(cards)) == multiset(fetched)
            && (forall i :: 0 <= i < |cards| ==> cards[i].rank == i + 1)
            && (forall i :: 0 <= i < |cards| ==> cards[i].cap == Display(cards[i].stock.mcap))
            && (forall i, j :: 0 <= i < j < |cards| ==> cards[i].stock.mcap >= cards[j].stock.mcap)
            && Stable(CapBefore, fetched, StocksOf(cards))
  {
    var fetched := WithMarketCaps(KeepStocks(lines, unquote), capOf);
    cards := RankByCap(fetched);
  }
}
